=== FILE: README.md ===
# CFlair-Counter in Dafny

This project models the core of CFlair-Counter, a page-view counter. It has two parts.

- The Cloudflare worker in `functions/index.ts` covers:
  - the fixed-window rate limiter in front of `POST /api/views/:projectName`;
  - the visitor fingerprint;
  - the view, visitor and usage tables and the handlers that read and change them;
  - the SVG badge;
  - the CORS origin choice;
  - the static-file routing of the default `fetch` export.
- The service worker in `public/sw.js` covers:
  - how a fetch is classified and dispatched;
  - what each caching handler answers;
  - what each handler leaves in Cache Storage;
  - which caches survive activation.

Modules, one per file:

- `text.dfy` (`Text`): optional header and query values with JavaScript truthiness (`x || fallback`), plus prefix, suffix and substring tests. It also holds string lengths counted in UTF-16 code units, as `String.prototype.length` counts them, and ASCII case mapping.
- `numerals.dfy` (`Numerals`): `Number.prototype.toString(radix)` for non-negative integers, and its inverse.
- `rate_limiter.dfy` (`RateLimit`): the in-memory limiter.
  - It is a class whose `store` map field is the `rateLimitStore` map.
  - Its `Check` method is the middleware.
  - `Check` is proved equal to the pure `Step` function, and the limiter's promises are proved about `Step` and about runs of calls (`Calls`).
- `fingerprint.dfy` (`Fingerprint`): `generateVisitorHash`.
  - The loop is a method whose invariant ties the running hash to a fold over code units.
  - JavaScript's 32-bit `<<` and `&` are written out as ToInt32.
- `badge.dfy` (`Badge`): the badge as a structured record.
  - The record holds the template, height, segment widths, fill, the texts drawn and the title.
  - Widths are multiples of one half, so they are kept in half-units.
- `worker.dfy` (`Worker`): the three D1 tables, held as maps in the class `CounterDb`.
  - `project_views` maps a project name to its counts.
  - `visitor_tracking` maps (project, visitor hash) to a visit count.
  - `usage_stats` maps a date to three counters.
  - Each handler is a method that runs the source's checks in the source's order and then its table updates.
  - The invariant `Valid` is kept by every state change. It says every visitor row belongs to a stored project, and a project's stored unique count is at most its visitor rows, which are at most its views.
- `routing.dfy` (`Routing`): the CORS origin callback and the static-file test of the default `fetch` export.
- `service_worker.dfy` (`ServiceWorker`): the fetch classifier and dispatch, the one-hour badge freshness rule, the four caching handlers and the activation clean-up.
  - Cache Storage is the class `CacheStorage`, whose field maps cache names to caches.
  - Each handler method is proved equal to a pure step function, and the caching promises are lemmas about those functions.

Inputs from the outside world are parameters:

- the clock (`now`, milliseconds) and today's date key (`date`);
- request headers, query values and the parsed JSON body;
- the numeric rate-limit settings, already parsed;
- the outcome of a network `fetch`: a response or a network error.

## Model

| member | source | states |
|---|---|---|
| RateLimit.RateLimiter.Check | functions/index.ts:28-88 | The store after one call and the decision equal `Step`: sweep the expired windows, open or extend the caller's window, then decide. |
| RateLimit.Step | functions/index.ts:36-86 | The caller's window is always in the new store, and the decision is `Decide` of that window. |
| RateLimit.Sweep | functions/index.ts:36-41 | No window that is over (`now > resetAt`) remains. Every other window, including one whose `resetAt == now`, is kept unchanged. |
| RateLimit.Admit | functions/index.ts:43-58 | An absent or expired key gets `{count: 1, resetAt: now + windowMs}`. A live key keeps its `resetAt` and its count rises by exactly one. Every other key is untouched. |
| RateLimit.Decide | functions/index.ts:60-86 | Refused exactly when the count exceeds the limit. `Retry-After` is the ceiling of the remaining milliseconds over 1000. An allowed call reports `remaining = max - count >= 0`. |
| RateLimit.CeilDiv | functions/index.ts:62 | `Math.ceil(x / d)`: the least r with `x <= r * d`. |
| RateLimit.FirstNPass | functions/index.ts:43-86 | With limit N and no live window, the calls within the window opened by the first call behave as follows. Call i passes iff i < N, with `remaining = N - i - 1`. Every call reports that window's reset instant. |
| RateLimit.CallsInLiveWindow | functions/index.ts:56-61 | Within a live window, call i sees the count `seen + i + 1` and the same reset instant. |
| RateLimit.RefusedCallIsCounted | functions/index.ts:53-76 | A refused call still stores its raised count. A further call within the window is refused too, and counted again. |
| RateLimit.ExpiredWindowRestarts | functions/index.ts:46-55 | A call after the window is over starts a fresh window with count 1. |
| RateLimit.NoExpiredAfterStep | functions/index.ts:36-55 | After a call with a non-negative window length, no stored window is over. |
| RateLimit.RetryAfterNonNegative | functions/index.ts:61-62 | With a non-negative window length, `Retry-After` is never negative. |
| RateLimit.Calls | functions/index.ts:28-88 | Consecutive limiter calls for one key, each on the store the previous one left, give one decision per call. |
| Fingerprint.ClientIp | functions/index.ts:97-100 | The address is CF-Connecting-IP, else X-Forwarded-For, else "unknown". An empty header counts as missing, and the result is never empty. |
| Fingerprint.VisitorHash | functions/index.ts:96-112 | The token is `VisitorToken` of the headers: the base-36 numeral of the absolute value of the 32-bit fold over `ip + "_" + userAgent`. It reads back to that value, which is at most 2^31. It is 1 to 6 lower-case base-36 digits, with no leading zero. |
| Fingerprint.VisitorToken | functions/index.ts:96-112 | The token a request's headers give is 1 to 6 base-36 digits, with no leading zero. |
| Fingerprint.HashUnits | functions/index.ts:104-110 | The loop's final hash is the fold of the rounds over all code units, a signed 32-bit integer. |
| Fingerprint.Base36Token | functions/index.ts:111 | The base-36 numeral of a magnitude of at most 2^31 reads back to it and has 1 to 6 digits, with no leading zero. |
| Fingerprint.HashRoundIsPolynomial | functions/index.ts:108-109 | `((h << 5) - h + c) & ((h << 5) - h + c)` on an int32 `h` is `ToInt32(31 * h + c)`. |
| Fingerprint.FoldStep | functions/index.ts:104-110 | Appending a code unit multiplies the hash by 31 and adds the unit, modulo 2^32. |
| Fingerprint.ToInt32 | functions/index.ts:109 | The result is a signed 32-bit integer congruent to the input modulo 2^32. |
| Fingerprint.HashRound | functions/index.ts:108-109 | One loop round: `(hash << 5) - hash + char`, then `hash & hash`, with both 32-bit conversions written out. |
| Fingerprint.Fold | functions/index.ts:104-110 | The hash after the loop over a sequence of code units, starting from 0; always a signed 32-bit integer. |
| Numerals.RadixRoundTrip | functions/index.ts:111 | Reading `n.toString(base)` back gives `n`. |
| Numerals.RadixNoLeadingZero | functions/index.ts:111 | The numeral starts with "0" only for zero. |
| Numerals.RadixLength | functions/index.ts:111 | A number below `base^k` has at most k digits. |
| Numerals.ToRadix | functions/index.ts:111 | `n.toString(base)` is a non-empty string of digits of that base. |
| Worker.CounterDb.Get | functions/index.ts:224-262 | An invalid name gives 400. An absent project gives zeros and a null description. Otherwise the stored counts and description. Nothing changes. |
| Worker.CounterDb.Post | functions/index.ts:266-347 | The limiter, keyed by CF-Connecting-IP or "unknown", runs first, even for an invalid name. A refusal gives 429 and changes no table. An invalid name gives 400 and changes no table. Otherwise usage is tracked for the day and the project gains exactly one view; other projects are unchanged. With analytics on, the visitor row keyed by the request's own `VisitorToken` is inserted at 1 or incremented, and the stored and reported unique count is the project's visitor-row count, at least 1. Off, visitors are unchanged and 0 is reported. |
| Worker.CounterDb.Increment | functions/index.ts:279-342 | Usage is tracked for the day. The project row gains exactly one view; other projects are unchanged. With analytics on, the (project, hash) visitor row is inserted at 1 or incremented, and the stored and reported unique count is the project's visitor-row count, at least 1. Off, visitors are unchanged and 0 is reported. The view sum rises by one and `Valid` is kept. |
| Worker.CounterDb.UpsertView | functions/index.ts:282-292 | The row is inserted with one view or its view count rises by one. Other rows, the visitor table and usage are unchanged. The view sum rises by one. |
| Worker.CounterDb.UpsertVisitor | functions/index.ts:299-310 | The visitor row is inserted with one visit or gains one visit. The other tables are unchanged and `Valid` is kept. |
| Worker.CounterDb.RecountUnique | functions/index.ts:313-326 | The project's unique count becomes its number of visitor rows; nothing else changes. |
| Worker.CounterDb.RecordVisitor | functions/index.ts:297-327 | Visitor upsert then recount. The reported count is the project's visitor rows, at least 1. The view count is unchanged. |
| Worker.CounterDb.TrackUsage | functions/index.ts:509-530 | The usage table becomes `Tracked` of the old one for the day; the other tables are unchanged. |
| Worker.CounterDb.BadgeFor | functions/index.ts:351-370 | An invalid name gives 400. Otherwise the badge for the stored view count, or 0 for an absent project. |
| Worker.CounterDb.Totals | functions/index.ts:538-546 | The two results are the sums of all view counts and of all unique counts. |
| Worker.CounterDb.Stats | functions/index.ts:533-567 | The view sum, the unique sum (null when analytics is off), the project count and the analytics flag. |
| Worker.CounterDb.AdminStats | functions/index.ts:570-648 | An unreadable body gives 400. Then 403 when admin is off, whatever the password. Then 401 unless the body password opens the gate; none of these touches usage. Only then is usage tracked for the day (`Tracked`) and the sums and project count reported. The project tables never change. |
| Worker.CounterDb.Delete | functions/index.ts:651-754 | The outcomes come in this order: 400, 403, 401, then 404 for an absent project, each with nothing changed. On success the project row and all its visitor rows are removed and the rest is kept. The view sum drops by the project's views, usage is tracked for the day (`Tracked`) and `Valid` is kept. |
| Worker.DeletePassword | functions/index.ts:659-672 | The password is the text after a 7-character "Bearer " prefix. Otherwise it is the body's `password`, else "". |
| Worker.AdminGate | functions/index.ts:586-604 | Disabled exactly when `ENABLE_ADMIN` is "false". Open exactly when admin is on and the password is non-empty and equals `ADMIN_PASSWORD`. |
| Worker.Enabled | functions/index.ts:204 | A flag is on unless it is exactly "false" (the same test at lines 297, 548, 577 and 675). |
| Worker.UnsetSecretNeverOpens | functions/index.ts:596 | With no admin password configured, no password opens the gate. |
| Worker.DeleteOutcomeOrder | functions/index.ts:684-702 | Admin off is 403 for every credential. An unset secret never opens. The Bearer header carrying the secret opens whatever the body says. |
| Worker.TotalRemove | functions/index.ts:541-542 | The sum of a column does not depend on the order of the rows. |
| Worker.TotalUpdate | functions/index.ts:541-542 | Replacing or adding one row changes the sum by that row's change. |
| Worker.UpsertVisitorKeepsValid | functions/index.ts:299-310 | A visit recorded for a project whose views already count it keeps `Valid`. |
| Worker.RemoveProjectKeepsValid | functions/index.ts:724-734 | Removing a project with all its visitor rows keeps `Valid` and leaves it no visitor rows. |
| Worker.Visited | functions/index.ts:299-310 | After one more visit, the key's count is one more than before, or exactly 1 for a new key. Every other key keeps its count. |
| Worker.Tracked | functions/index.ts:509-530 | The day's three counters rise by one, and a new day starts at 1, 1, 1. Every other day is present exactly when it was, with its counters unchanged. |
| Worker.ValidName | functions/index.ts:226 | A name is accepted when it is non-empty and at most 100 UTF-16 code units long (the same test at lines 268, 357 and 653). |
| Worker.Viewed | functions/index.ts:282-292 | The project row after one more view: an existing row's view count plus one, or a new row with one view, no unique views and no description. |
| Worker.UniqueVisitors | functions/index.ts:313-319 | The number of visitor rows whose project is the given one. |
| Worker.Total | functions/index.ts:541-542 | The sum of one column over all project rows, 0 for no rows. |
| Badge.Render | functions/index.ts:351-496 | The defaults are "flat", "blue" and "views", and an empty query value counts as missing. It fixes the template from the style and the height (28 only for for-the-badge). It also fixes the label as drawn (uppercased only for for-the-badge), the bold and rounded flags, both widths and the total width (at least 70), the value text and the fill. The fallback template has no title; the others carry the unabbreviated count. |
| Badge.StyleOf | functions/index.ts:402-476 | "flat", "flat-square" and "for-the-badge" select their templates; any other value the fallback one. |
| Badge.BadgeColor | functions/index.ts:389 | A keyword gives its code; any other colour passes through verbatim. |
| Badge.LabelWidth2 | functions/index.ts:392 | `max(6.5 * length + 10, 40)`, in half-units, is at least 40. |
| Badge.ValueWidth2 | functions/index.ts:397 | `max(7 * length + 10, 30)`, in half-units, is at least 30. |
| Badge.ValueText | functions/index.ts:393-396 | The drawn value is non-empty and ends in "k" exactly when the count is at least 1000. |
| Badge.SmallCountPlain | functions/index.ts:393-396 | Below 1000 the value is the count's own decimal numeral. |
| Badge.LargeCountAbbreviated | functions/index.ts:393-396 | From 1000 on the value is `<digits>.<digit>k`, spelling the nearest tenth of count/1000. |
| Badge.SmallValueTextExamples | functions/index.ts:393-396 | 0 and 999 are drawn "0" and "999". |
| Badge.LargeValueTextExamples | functions/index.ts:393-396 | 1000, 1500 and 12345 are drawn "1.0k", "1.5k" and "12.3k". |
| Badge.WidthsMonotone | functions/index.ts:392-397 | A longer text never makes a segment narrower. |
| Badge.Defaults | functions/index.ts:353-355 | With no parameters the badge is flat, blue (#007ec6), 20 high and labelled "views", 42.5 wide on the label side. |
| Badge.ForTheBadgeOnly | functions/index.ts:402-476 | for-the-badge is 28 high with an uppercased label; flat and flat-square are 20 high. |
| Badge.TitleCarriesFullCount | functions/index.ts:404-405 | The title is the label, ": ", and the full decimal count. |
| Badge.PaletteFacts | functions/index.ts:373-387 | Every colour code is a 7-character "#" code. The five aliases share their colour's code. |
| Routing.CorsOrigin | functions/index.ts:118-131 | A truthy origin starting with an allowed one is echoed; every other request, with no or an empty origin included, gets "*". An echoed origin is always the request's own. |
| Routing.AllowedOrigin | functions/index.ts:128-129 | The origin starts with one of the four allowed origins. |
| Routing.CorsOriginCases | functions/index.ts:118-131 | Each allowed origin is echoed. A missing, empty or non-matching origin gets "*". |
| Routing.PrefixMatchAdmitsExtensions | functions/index.ts:128-129 | Matching is by prefix, so any origin that extends an allowed one is echoed. |
| Routing.Route | functions/index.ts:762-770 | Static assets exactly for "/", "/index.html" or a path with a static extension; every other path goes to the API application. |
| Routing.HasStaticExtension | functions/index.ts:765-767 | The lower-cased path ends in a dot followed by one of the 14 extensions of the regular expression. |
| Routing.DotlessApiPathsReachApplication | functions/index.ts:762-774 | An `/api/` path without a dot always reaches the API application. |
| Routing.DottedProjectNameGoesToAssets | functions/index.ts:765-771 | A project name ending in ".js" is served as a static asset, so it can never be counted. |
| Routing.RouteIgnoresCase | functions/index.ts:766-768 | The decision ignores ASCII case in the path. |
| ServiceWorker.Dispatch | public/sw.js:86-100 | Skip exactly for non-GET. Static exactly for a GET whose URL passes the static test. Otherwise Api exactly for an API path, then the badge route exactly for a badge path, and the generic handler exactly for the rest. |
| ServiceWorker.IsStaticResource | public/sw.js:103-109 | The URL contains one of the seven listed resources, or one of the four content-delivery hosts, as a substring. |
| ServiceWorker.IsApiRequest | public/sw.js:112-114 | The path starts with "/api/" and does not contain "/badge". |
| ServiceWorker.IsBadgeRequest | public/sw.js:117-119 | The path contains "/badge". |
| ServiceWorker.ApiAndBadgeExclusive | public/sw.js:112-119 | No path is both an API request and a badge request. Every `/api/` path is one of the two. |
| ServiceWorker.EverySlashUrlIsStatic | public/sw.js:103-109 | Any URL containing "/" passes the static test, as written. |
| ServiceWorker.AbsoluteApiUrlMisrouted | public/sw.js:91-99 | A same-origin API URL is dispatched to the static handler as written, and to the API handler once corrected. |
| ServiceWorker.StatsRequestMisrouted | public/sw.js:91-99 | The same for `https://counter.vkrishna04.me/api/stats`. |
| ServiceWorker.DispatchCorrected | public/sw.js:91-99 | Skip exactly for non-GET. Static exactly for "/", "/index.html" or a content-delivery host. |
| ServiceWorker.CorrectedReachesEveryHandler | public/sw.js:91-99 | With the corrected test, a same-origin API path reaches the API handler and a badge path the badge handler. Any other path except "/" and "/index.html" reaches the generic handler. |
| ServiceWorker.CorrectedKeepsStaticResources | public/sw.js:8-16 | The corrected test still classifies all seven listed resources as static. |
| ServiceWorker.FreshnessWindow | public/sw.js:203-211 | A dated badge is fresh for 3,600,000 ms, inclusive. A missing date counts from the epoch. An unreadable date never expires. |
| ServiceWorker.IsExpired | public/sw.js:204-205 | A cached badge is expired when more than 3,600,000 ms have passed since its date; a missing date reads as the epoch and an unreadable one never expires. |
| ServiceWorker.ApiFallsBackToLastOk | public/sw.js:160-180 | After an ok API response, a later network failure for the same URL returns that response. |
| ServiceWorker.OfflineAnswers | public/sw.js:182-241 | Offline with nothing cached, the API route gives 503 and the badge route gives the "Offline" badge with 200. |
| ServiceWorker.NonOkNeverStored | public/sw.js:143-218 | A non-ok response never replaces a cache entry, in any of the three caching handlers. |
| ServiceWorker.FreshBadgeSkipsNetwork | public/sw.js:203-211 | A fresh cached badge is returned and the network outcome is irrelevant. |
| ServiceWorker.ExpiredBadgeRefetched | public/sw.js:213-220 | An expired cached badge is replaced by, and answered with, an ok network response. |
| ServiceWorker.BadgeStaleOffline | public/sw.js:222-235 | Offline, an expired stored badge is still answered and stays stored. |
| ServiceWorker.StaticServedOffline | public/sw.js:122-138 | A cached static resource is served even when the network is down. |
| ServiceWorker.ActivationKeepsCurrent | public/sw.js:64-72 | Exactly the two current caches survive activation, with their contents. Clean-up is idempotent. |
| ServiceWorker.Retained | public/sw.js:64-72 | The kept caches are exactly those named `CACHE_NAME` or `API_CACHE_NAME`. |
| ServiceWorker.Stored | public/sw.js:144 | After a put, the entry is the new response and every other entry is unchanged. |
| ServiceWorker.Opened | public/sw.js:124 | `caches.open(name)` creates the named cache empty when absent and leaves every existing cache as it is. |
| ServiceWorker.Lookup | public/sw.js:125 | `cache.match(url)`: the stored response for the URL in the named cache, or none. |
| ServiceWorker.ApiStep | public/sw.js:155-194 | Only the API cache entry for the URL can change. A fetched response is returned as it is, and stored exactly when it is ok. On a network error the entry stays as it was and the answer is the stored response, else the JSON 503 `ApiOffline`. |
| ServiceWorker.BadgeStep | public/sw.js:197-243 | Only the API cache entry for the URL can change, and only to an ok network response. A stored badge that has not expired is answered and kept. Otherwise a fetched response, ok or not, is answered (and stored when ok), and on a network error the stored badge however old, else the "Offline" badge. |
| ServiceWorker.StaticStep | public/sw.js:122-152 | Cache first: a stored response is answered whatever the network does. On a miss the fetched response is answered, ok or not, and offline the 503 "Resource not available". An ok fetched response is stored (the refresh of a hit, or the fill of a miss); otherwise the entry stays as it was. No other cache entry changes. |
| ServiceWorker.GenericStep | public/sw.js:246-260 | No cache entry changes. A fetched response is answered as it is. On a network error the cached root page is answered, else the 503 "Offline". |
| ServiceWorker.CacheStorage.Activate | public/sw.js:63-72 | The storage after the loop is `Retained` of the storage before. |
| ServiceWorker.CacheStorage.HandleApi | public/sw.js:155-194 | The result and new storage are `ApiStep`: network first, an ok response stored, fallback to the cache, then to 503. |
| ServiceWorker.CacheStorage.HandleBadge | public/sw.js:197-243 | Equals `BadgeStep`: a fresh cached badge without fetching, else the network answer (stored if ok), else the cached badge, else the Offline badge. |
| ServiceWorker.CacheStorage.HandleStatic | public/sw.js:122-152 | Equals `StaticStep`: cache first with the background refresh, else the network answer (stored if ok), else 503. |
| ServiceWorker.CacheStorage.HandleGeneric | public/sw.js:246-260 | Equals `GenericStep`: the network answer, else the cached root page, else 503. |
| ServiceWorker.CacheStorage.OnFetch | public/sw.js:81-100 | No response exactly for non-GET. Otherwise the handler chosen by the corrected dispatch, with its step's result and storage. |

## Left out

- SQL execution, `initDatabase` and the table definitions (functions/index.ts:141-199) are left out, and so are database errors and the 500 replies they cause. The tables are maps and every statement is a map update, so a failing statement is not modelled.
- Timestamps (`created_at`, `updated_at`, `last_visit`, `toISOString()`) and the date key of `trackUsage` are left out. The date is a parameter, and a reply's `timestamp` field is not modelled.
- Hono middleware wiring, response headers (`X-RateLimit-*`, `Content-Type`, `Cache-Control`) and the JSON field names of replies are left out. Replies are a datatype.
- DEBUG logging and the `/health` endpoint are left out.
- Concurrency is left out: the shared `rateLimitStore` across requests and isolates, and interleavings of the three statements of the unique-count recompute. Every request runs alone.
- `parseInt` of `RATE_LIMIT_REQUESTS` and `RATE_LIMIT_WINDOW` is left out, including its NaN results; the settings are integers.
- JSON body parsing is three cases: unreadable, no `password` field, or a string `password`. A non-string `password` is not modelled.
- Colour names that hit `Object.prototype` keys in `colorMap` (such as "constructor") are not modelled; the palette is a plain 13-entry map.
- Badge.ValueText: `toFixed(1)` on an exact half (count % 100 == 50) depends on the binary double nearest count/1000. The model rounds every half up.
- Badge.ValueText: counts above 2^53 are not modelled. `Number(view_count)` (functions/index.ts:370) rounds them to the nearest double, and the source draws that double: a stored 9007199254740993 is drawn as 9007199254740992. The model draws the exact count.
- Badge.Render: for counts above 2^53 the title also shows the exact count, where the source shows the double that `Number(view_count)` rounds it to.
- Badge.Render: `toUpperCase` is modelled for ASCII letters only.
- Badge.Render: the SVG text itself is not produced. The badge is a record of everything the templates insert (widths, height, fill, texts, title, rounding, weight).
- The admin top-10 query (functions/index.ts:621-628) and the constant fields of the admin reply are not modelled. `AdminStatistics` carries the sums and the project count.
- functions/index.ts:46-50 (the second expiry test in the limiter) cannot succeed after the sweep. The model states this as an assertion instead of a branch.
- In public/sw.js, the install pre-caching and the push, notificationclick, sync and message listeners are left out. So are `skipWaiting`, `clients.claim`, and failures of `caches.open`, `cache.match` or `cache.put` themselves.
- ServiceWorker.CacheStorage.HandleStatic: the background refresh of a cached resource is applied at once, with the same network outcome. It is really a later, unawaited fetch.
- ServiceWorker.CacheStorage.OnFetch: it dispatches with the corrected static test (see Findings). `Dispatch` models the listener as written.
- Cache keys are request URLs. Request headers, `Vary` and the request mode play no part in matching.
- functions/api/[[path]].ts and functions/[[path]].ts are not part of this model.

## Findings

| source | as written | input that shows it | evidently intended | confidence | as-written member | corrected member |
|---|---|---|---|---|---|---|
| public/sw.js:8-9, 91-109 | `isStaticResource` tests `url.includes(resource)` for every entry of `STATIC_RESOURCES`, and that list contains "/". So every absolute request URL is "static", and the API, badge and generic handlers are never reached. API and badge GETs are then served stale-while-revalidate from `CACHE_NAME`: online, each answer is the one fetched on the previous request. The network-first rule and the one-hour badge rule never apply. Offline, the JSON 503 and the "Offline" badge are replaced by the 503 "Resource not available". | `GET https://counter.vkrishna04.me/api/stats` goes to the static handler | The local entries "/" and "/index.html" match by path, the external ones by their host. API, badge and other requests reach their own handlers. | high (not executed) | ServiceWorker.StatsRequestMisrouted | ServiceWorker.DispatchCorrected |

=== FILE: badge.dfy ===
/** The SVG badge of `GET /api/views/:projectName/badge` (functions/index.ts),
    as a structured record: the template chosen by the style, the segment
    widths, the height, the fill colour and the texts. Widths are multiples of
    one half, so they are kept in half-units (a stored 80 is a width of 40). */
module Badge {
  import opened Text
  import opened Numerals

  datatype Style = Flat | FlatSquare | ForTheBadge | Fallback

  datatype Badge = Badge(
    style: Style,
    height: nat,
    labelWidth2: nat,        // label segment width, in half-units
    valueWidth2: nat,        // value segment width, in half-units
    width2: nat,             // total width, in half-units
    fill: string,            // fill of the value segment
    labelText: string,       // the label as drawn
    valueText: string,       // the count as drawn
    title: Option<string>,   // `<title>` and `aria-label`; the fallback template has neither
    rounded: bool,           // clipped to rounded corners with a gradient overlay
    bold: bool)

  /** The style query parameter, unknown values selecting the fallback template. */
  function StyleOf(s: string): Style {
    if s == "flat" then Flat
    else if s == "flat-square" then FlatSquare
    else if s == "for-the-badge" then ForTheBadge
    else Fallback
  }

  /** The 13 colour keywords. */
  const Palette: map<string, string> := map[
    "blue" := "#007ec6",
    "brightgreen" := "#44cc11",
    "green" := "#97ca00",
    "yellowgreen" := "#a4a61d",
    "yellow" := "#dfb317",
    "orange" := "#fe7d37",
    "red" := "#e05d44",
    "lightgrey" := "#9f9f9f",
    "success" := "#44cc11",
    "important" := "#fe7d37",
    "critical" := "#e05d44",
    "informational" := "#007ec6",
    "inactive" := "#9f9f9f"
  ]

  /** `colorMap[color] || color`: a keyword's code, any other colour verbatim. */
  function BadgeColor(color: string): (fill: string)
    ensures color in Palette ==> fill == Palette[color]
    ensures color !in Palette ==> fill == color
  {
    if color in Palette then Palette[color] else color
  }

  /** The count as drawn: plain below 1000, else thousands to one decimal and "k".
      `toFixed(1)` rounds to the nearest tenth; an exact half is rounded up. */
  function ValueText(count: nat): (r: string)
    ensures |r| >= 1 && (r[|r| - 1] == 'k' <==> count >= 1000)
  {
    if count < 1000 then Decimal(count)
    else
      var tenths := (count + 50) / 100;
      Decimal(tenths / 10) + "." + [Digit(tenths % 10)] + "k"
  }

  /** `max(6.5 * label.length + 10, 40)`, doubled. */
  function LabelWidth2(caption: string): (w: nat)
    ensures w >= 80 && w >= 13 * JsLength(caption) + 20
    ensures w == 80 || w == 13 * JsLength(caption) + 20
  {
    if 13 * JsLength(caption) + 20 > 80 then 13 * JsLength(caption) + 20 else 80
  }

  /** `max(7 * valueText.length + 10, 30)`, doubled. */
  function ValueWidth2(valueText: string): (w: nat)
    ensures w >= 60 && w >= 14 * JsLength(valueText) + 20
    ensures w == 60 || w == 14 * JsLength(valueText) + 20
  {
    if 14 * JsLength(valueText) + 20 > 60 then 14 * JsLength(valueText) + 20 else 60
  }

  /** The badge for `viewCount` and the optional `style`, `color` and `label`
      query parameters (an empty parameter counts as missing). */
  function Render(viewCount: nat, style: Option<string>, color: Option<string>, caption: Option<string>)
    : (b: Badge)
    ensures var lbl := OrElse(caption, "views");
            && b.style == StyleOf(OrElse(style, "flat"))
            && b.height == (if b.style == ForTheBadge then 28 else 20)
            && b.labelText == (if b.style == ForTheBadge then ToUpper(lbl) else lbl)
            && b.bold == (b.style == ForTheBadge)
            && b.rounded == (b.style == Flat)
            && b.labelWidth2 == LabelWidth2(lbl)
            && b.valueWidth2 == ValueWidth2(b.valueText)
            && b.width2 == b.labelWidth2 + b.valueWidth2 && b.width2 >= 140
            && b.valueText == ValueText(viewCount)
            && b.fill == BadgeColor(OrElse(color, "blue"))
            && b.title == (if b.style == Fallback then None else Some(lbl + ": " + Decimal(viewCount)))
  {
    var lbl := OrElse(caption, "views");
    var st := StyleOf(OrElse(style, "flat"));
    var text := ValueText(viewCount);
    var lw, vw := LabelWidth2(lbl), ValueWidth2(text);
    Badge(
      st,
      if st == ForTheBadge then 28 else 20,
      lw, vw, lw + vw,
      BadgeColor(OrElse(color, "blue")),
      if st == ForTheBadge then ToUpper(lbl) else lbl,
      text,
      if st == Fallback then None else Some(lbl + ": " + Decimal(viewCount)),
      st == Flat,
      st == ForTheBadge)
  }

  /** Below 1000 the drawn value is the count's own decimal numeral. */
  lemma SmallCountPlain(count: nat)
    requires count < 1000
    ensures IsNumeral(ValueText(count), 10) && FromRadix(ValueText(count), 10) == count
    ensures 'k' !in ValueText(count)
  {
    RadixRoundTrip(count, 10);
  }

  /** From 1000 on the drawn value is `<digits>.<digit>k`, and the tenths it
      spells are the nearest tenth of count/1000 (halves rounded up). */
  lemma LargeCountAbbreviated(count: nat)
    requires count >= 1000
    ensures var r := ValueText(count);
            && |r| >= 4 && r[|r| - 1] == 'k' && r[|r| - 3] == '.'
            && IsNumeral(r[..|r| - 3], 10) && IsDigit(r[|r| - 2], 10)
            && var t := FromRadix(r[..|r| - 3], 10) * 10 + DigitValue(r[|r| - 2]);
               t * 100 - 50 <= count < t * 100 + 50
  {
    var tenths := (count + 50) / 100;
    var whole := Decimal(tenths / 10);
    var r := ValueText(count);
    assert r == whole + ['.', Digit(tenths % 10), 'k'];
    assert r[..|r| - 3] == whole;
    RadixRoundTrip(tenths / 10, 10);
  }

  lemma SmallValueTextExamples()
    ensures ValueText(0) == "0"
    ensures ValueText(999) == "999"
  {
    assert Decimal(99) == "99";
  }

  lemma LargeValueTextExamples()
    ensures ValueText(1000) == "1.0k"
    ensures ValueText(1500) == "1.5k"
    ensures ValueText(12345) == "12.3k"
  {
    assert Decimal(12) == "12";
  }

  /** Longer texts never make a segment narrower. */
  lemma WidthsMonotone(a: string, b: string)
    requires JsLength(a) <= JsLength(b)
    ensures LabelWidth2(a) <= LabelWidth2(b)
    ensures ValueWidth2(a) <= ValueWidth2(b)
  {
  }

  /** The defaults are the flat template, blue and the label "views". */
  lemma Defaults(viewCount: nat)
    ensures var b := Render(viewCount, None, None, None);
            b.style == Flat && b.fill == "#007ec6" && b.labelText == "views" && b.height == 20
            && b.labelWidth2 == 85
  {
    Utf16OfBmp("views");
  }

  /** Only the bold template uppercases the label and is 28 units high. */
  lemma ForTheBadgeOnly(viewCount: nat, color: Option<string>, caption: Option<string>)
    ensures Render(viewCount, Some("for-the-badge"), color, caption).height == 28
    ensures Render(viewCount, Some("for-the-badge"), color, caption).labelText == ToUpper(OrElse(caption, "views"))
    ensures Render(viewCount, Some("flat"), color, caption).height == 20
    ensures Render(viewCount, Some("flat-square"), color, caption).height == 20
  {
  }

  /** The title and aria-label carry the count unabbreviated. */
  lemma TitleCarriesFullCount(viewCount: nat, style: Option<string>, color: Option<string>, caption: Option<string>)
    requires Render(viewCount, style, color, caption).style != Fallback
    ensures var t := Render(viewCount, style, color, caption).title.value;
            var prefix := OrElse(caption, "views") + ": ";
            StartsWith(t, prefix) && FromRadix(t[|prefix|..], 10) == viewCount
  {
    var prefix := OrElse(caption, "views") + ": ";
    var t := prefix + Decimal(viewCount);
    assert t[|prefix|..] == Decimal(viewCount);
    assert t[..|prefix|] == prefix;
    RadixRoundTrip(viewCount, 10);
  }

  /** Each keyword maps to a seven-character hex code; the alias keywords share their colour's code. */
  lemma PaletteFacts()
    ensures forall k :: k in Palette ==> |Palette[k]| == 7 && Palette[k][0] == '#'
    ensures Palette["success"] == Palette["brightgreen"]
    ensures Palette["important"] == Palette["orange"]
    ensures Palette["critical"] == Palette["red"]
    ensures Palette["informational"] == Palette["blue"]
    ensures Palette["inactive"] == Palette["lightgrey"]
  {
  }
}

=== FILE: fingerprint.dfy ===
/** The visitor fingerprint of `generateVisitorHash` (functions/index.ts): a
    32-bit polynomial fold over `ip + "_" + userAgent`, written as the base-36
    numeral of its absolute value. Not collision-resistant by design. */
module Fingerprint {
  import opened Text
  import opened Numerals

  const TwoTo31: int := 0x8000_0000
  const TwoTo32: int := 0x1_0000_0000

  predicate IsInt32(x: int) {
    -TwoTo31 <= x < TwoTo31
  }

  /** JavaScript's ToInt32: wrap an integer into the signed 32-bit range. */
  function ToInt32(x: int): (r: int)
    ensures IsInt32(r)
    ensures (x - r) % TwoTo32 == 0
  {
    var m := x % TwoTo32;
    assert x == (x / TwoTo32) * TwoTo32 + m;
    if m >= TwoTo31 then m - TwoTo32 else m
  }

  /** ToInt32 only depends on its argument modulo 2^32. */
  lemma ToInt32Congruent(x: int, y: int, k: int)
    requires x - y == k * TwoTo32
    ensures ToInt32(x) == ToInt32(y)
  {
    var qx, qy := x / TwoTo32, y / TwoTo32;
    var mx, my := x % TwoTo32, y % TwoTo32;
    assert x == qx * TwoTo32 + mx;
    assert y == qy * TwoTo32 + my;
    assert mx - my == (k - qx + qy) * TwoTo32;
    SmallMultipleIsZero(mx - my, k - qx + qy);
  }

  lemma SmallMultipleIsZero(d: int, j: int)
    requires d == j * TwoTo32 && -TwoTo32 < d < TwoTo32
    ensures d == 0
  {
  }

  /** One round of the loop body: `hash = (hash << 5) - hash + char; hash = hash & hash`.
      On an int32 `hash`, `hash << 5` is ToInt32(hash * 32); the difference and
      sum are exact in doubles; `hash & hash` is ToInt32 again. */
  function HashRound(hash: int, unit: int): int {
    ToInt32(ToInt32(hash * 32) - hash + unit)
  }

  /** The round is the polynomial step `31 * hash + unit`, wrapped to 32 bits. */
  lemma HashRoundIsPolynomial(hash: int, unit: int)
    ensures HashRound(hash, unit) == ToInt32(31 * hash + unit)
  {
    var s := ToInt32(hash * 32);
    var k := (hash * 32 - s) / TwoTo32;
    assert hash * 32 - s == k * TwoTo32;
    ToInt32Congruent(31 * hash + unit, s - hash + unit, k);
  }

  /** The fold over a sequence of UTF-16 code units, starting from 0. */
  function Fold(units: seq<int>): (h: int)
    ensures IsInt32(h)
  {
    if units == [] then 0
    else HashRound(Fold(units[..|units| - 1]), units[|units| - 1])
  }

  function Abs(x: int): nat {
    if x < 0 then -x else x
  }

  /** The string the hash is taken over. */
  function HashInput(ip: string, userAgent: string): string {
    ip + "_" + userAgent
  }

  /** The client address: `CF-Connecting-IP`, else `X-Forwarded-For`, else
      "unknown" (an empty header counts as missing). */
  function ClientIp(cfConnectingIp: Option<string>, xForwardedFor: Option<string>): (ip: string)
    ensures Truthy(cfConnectingIp) ==> ip == cfConnectingIp.value
    ensures !Truthy(cfConnectingIp) && Truthy(xForwardedFor) ==> ip == xForwardedFor.value
    ensures !Truthy(cfConnectingIp) && !Truthy(xForwardedFor) ==> ip == "unknown"
    ensures ip != ""
  {
    OrElse(cfConnectingIp, OrElse(xForwardedFor, "unknown"))
  }

  /** The visitor token a request with these headers is given: the base-36
      numeral of the magnitude of the fold over `ip + "_" + userAgent`. */
  function VisitorToken(cfConnectingIp: Option<string>, xForwardedFor: Option<string>, userAgent: Option<string>)
    : (token: string)
    ensures 1 <= |token| <= 6 && IsNumeral(token, 36)
    ensures token[0] == '0' ==> token == "0"
  {
    var h := Fold(Utf16(HashInput(ClientIp(cfConnectingIp, xForwardedFor), OrElse(userAgent, ""))));
    Base36Token(Abs(h));
    ToRadix(Abs(h), 36)
  }

  /** `generateVisitorHash` over the request's headers. */
  method VisitorHash(cfConnectingIp: Option<string>, xForwardedFor: Option<string>, userAgent: Option<string>)
    returns (token: string)
    ensures token == VisitorToken(cfConnectingIp, xForwardedFor, userAgent)
    ensures var h := Fold(Utf16(HashInput(ClientIp(cfConnectingIp, xForwardedFor), OrElse(userAgent, ""))));
            token == ToRadix(Abs(h), 36) && FromRadix(token, 36) == Abs(h) && Abs(h) <= TwoTo31
    ensures 1 <= |token| <= 6 && IsNumeral(token, 36)
    ensures token[0] == '0' ==> token == "0"
  {
    var ip := ClientIp(cfConnectingIp, xForwardedFor);
    var ua := OrElse(userAgent, "");
    var hash := HashUnits(Utf16(HashInput(ip, ua)));
    token := ToRadix(Abs(hash), 36);
    Base36Token(Abs(hash));
  }

  /** The hashing loop over the code units of the input. */
  method HashUnits(str: seq<int>) returns (hash: int)
    ensures hash == Fold(str) && IsInt32(hash)
  {
    hash := 0;
    var i := 0;
    while i < |str|
      invariant 0 <= i <= |str|
      invariant hash == Fold(str[..i])
    {
      assert str[..i + 1][..i] == str[..i];
      hash := ToInt32(ToInt32(hash * 32) - hash + str[i]);
      i := i + 1;
    }
    assert str[..i] == str;
  }

  /** The base-36 numeral of a magnitude of at most 2^31 reads back to it and
      has one to six digits, with no leading zero. */
  lemma Base36Token(n: nat)
    requires n <= TwoTo31
    ensures FromRadix(ToRadix(n, 36), 36) == n
    ensures |ToRadix(n, 36)| <= 6
    ensures ToRadix(n, 36)[0] == '0' ==> ToRadix(n, 36) == "0"
  {
    RadixRoundTrip(n, 36);
    RadixNoLeadingZero(n, 36);
    assert n < 2176782336 == Power(36, 6);
    RadixLength(n, 36, 6);
  }

  /** The fold read as a polynomial: appending a unit multiplies by 31 and adds it, modulo 2^32. */
  lemma FoldStep(units: seq<int>, u: int)
    ensures Fold(units + [u]) == ToInt32(31 * Fold(units) + u)
  {
    assert (units + [u])[..|units + [u]| - 1] == units;
    HashRoundIsPolynomial(Fold(units), u);
  }
}

=== FILE: numerals.dfy ===
/** Non-negative integers written in a radix from 2 to 36 with the lower-case
    digits of JavaScript's `Number.prototype.toString(radix)`. */
module Numerals {

  predicate ValidBase(base: nat) {
    2 <= base <= 36
  }

  /** The value of a digit character, or `base` and above when it is not a digit. */
  function DigitValue(c: char): nat {
    if '0' <= c <= '9' then c as nat - '0' as nat
    else if 'a' <= c <= 'z' then c as nat - 'a' as nat + 10
    else 36
  }

  predicate IsDigit(c: char, base: nat) {
    DigitValue(c) < base
  }

  predicate IsNumeral(s: string, base: nat) {
    forall i :: 0 <= i < |s| ==> IsDigit(s[i], base)
  }

  /** The digit for a value below 36: "0" to "9", then "a" to "z". */
  function Digit(d: nat): (c: char)
    requires d < 36
    ensures DigitValue(c) == d
  {
    if d < 10 then ('0' as int + d) as char else ('a' as int + d - 10) as char
  }

  /** `n.toString(base)` for a non-negative integer. */
  function ToRadix(n: nat, base: nat): (s: string)
    requires ValidBase(base)
    ensures |s| >= 1
    ensures IsNumeral(s, base)
    decreases n
  {
    if n < base then [Digit(n)]
    else ToRadix(n / base, base) + [Digit(n % base)]
  }

  /** The value of a numeral, most significant digit first. */
  function FromRadix(s: string, base: nat): nat
    decreases |s|
  {
    if s == [] then 0
    else FromRadix(s[..|s| - 1], base) * base + DigitValue(s[|s| - 1])
  }

  function Decimal(n: nat): string {
    ToRadix(n, 10)
  }

  lemma FromRadixSnoc(p: string, c: char, base: nat)
    ensures FromRadix(p + [c], base) == FromRadix(p, base) * base + DigitValue(c)
  {
    assert (p + [c])[..|p + [c]| - 1] == p;
  }

  lemma DivMod(n: nat, base: nat)
    requires base >= 2
    ensures (n / base) * base + n % base == n
    ensures n >= base ==> n / base < n
  {
  }

  /** Reading the numeral back gives the number. */
  lemma {:induction false} RadixRoundTrip(n: nat, base: nat)
    requires ValidBase(base)
    ensures FromRadix(ToRadix(n, base), base) == n
    decreases n
  {
    if n < base {
      FromRadixSnoc([], Digit(n), base);
      assert [] + [Digit(n)] == ToRadix(n, base);
    } else {
      var q, d := n / base, n % base;
      var p := ToRadix(q, base);
      assert ToRadix(n, base) == p + [Digit(d)];
      DivMod(n, base);
      RadixRoundTrip(q, base);
      FromRadixSnoc(p, Digit(d), base);
      assert FromRadix(ToRadix(n, base), base) == FromRadix(p, base) * base + d;
    }
  }

  /** There is no leading zero except in the numeral of zero itself. */
  lemma {:induction false} RadixNoLeadingZero(n: nat, base: nat)
    requires ValidBase(base)
    ensures ToRadix(n, base)[0] == '0' <==> n == 0
    decreases n
  {
    if n >= base {
      RadixNoLeadingZero(n / base, base);
    }
  }

  /** Numbers below `base^k` have at most `k` digits. */
  lemma {:induction false} RadixLength(n: nat, base: nat, k: nat)
    requires ValidBase(base) && 1 <= k && n < Power(base, k)
    ensures |ToRadix(n, base)| <= k
    decreases k
  {
    if n >= base {
      DivBound(n, base, Power(base, k - 1));
      RadixLength(n / base, base, k - 1);
    }
  }

  lemma DivBound(n: nat, base: nat, b: nat)
    requires base >= 2 && n < base * b
    ensures n / base < b
  {
  }

  function Power(base: nat, k: nat): nat {
    if k == 0 then 1 else base * Power(base, k - 1)
  }
}

=== FILE: rate_limiter.dfy ===
/** The fixed-window rate limiter that guards `POST /api/views/:projectName`
    (functions/index.ts, `rateLimitStore` and `customRateLimiter`).

    The store maps a client key to its window: the number of requests seen and
    the instant (milliseconds) after which the window is over. Every call first
    sweeps out the expired windows, then opens or extends the caller's window,
    and then decides. */
module RateLimit {

  datatype Window = Window(count: int, resetAt: int)

  /** What the middleware answers: the request passes with the quota left, or it
      is refused with 429 and a `Retry-After` in whole seconds. */
  datatype Decision =
    | Allowed(remaining: int, resetAt: int)
    | Limited(retryAfter: int, resetAt: int)

  /** A window is over once `now` is strictly past its reset instant. */
  predicate Expired(w: Window, now: int) {
    now > w.resetAt
  }

  /** `Math.ceil(x / d)` for a positive integer divisor. */
  function CeilDiv(x: int, d: int): (r: int)
    requires d > 0
    ensures (r - 1) * d < x <= r * d
  {
    -((-x) / d)
  }

  /** The store after the cleanup loop. */
  function Sweep(m: map<string, Window>, now: int): (r: map<string, Window>)
    ensures forall k :: k in r ==> k in m && r[k] == m[k] && !Expired(r[k], now)
    ensures forall k :: k in m && !Expired(m[k], now) ==> k in r
  {
    map k | k in m && !Expired(m[k], now) :: m[k]
  }

  /** The store after the caller's window is opened or extended. */
  function Admit(m: map<string, Window>, key: string, now: int, windowMs: int): (r: map<string, Window>)
    ensures key in r
    ensures key !in m || Expired(m[key], now) ==> r[key] == Window(1, now + windowMs)
    ensures key in m && !Expired(m[key], now) ==>
              r[key] == Window(m[key].count + 1, m[key].resetAt)
    ensures forall k :: k != key ==> (k in r <==> k in m)
    ensures forall k :: k != key && k in m ==> r[k] == m[k]
  {
    if key in m && !Expired(m[key], now) then
      m[key := Window(m[key].count + 1, m[key].resetAt)]
    else
      m[key := Window(1, now + windowMs)]
  }

  /** The verdict on the caller's updated window. */
  function Decide(w: Window, now: int, maxRequests: int): (d: Decision)
    ensures d.resetAt == w.resetAt
    ensures d.Limited? <==> w.count > maxRequests
    ensures d.Limited? ==> (d.retryAfter - 1) * 1000 < w.resetAt - now <= d.retryAfter * 1000
    ensures d.Allowed? ==> d.remaining == maxRequests - w.count && d.remaining >= 0
  {
    if w.count > maxRequests then Limited(CeilDiv(w.resetAt - now, 1000), w.resetAt)
    else Allowed(maxRequests - w.count, w.resetAt)
  }

  /** One call: the new store and the decision. */
  function Step(m: map<string, Window>, key: string, now: int, maxRequests: int, windowMs: int)
    : (r: (map<string, Window>, Decision))
    ensures key in r.0 && r.1 == Decide(r.0[key], now, maxRequests)
  {
    var m' := Admit(Sweep(m, now), key, now, windowMs);
    (m', Decide(m'[key], now, maxRequests))
  }

  class RateLimiter {
    var store: map<string, Window>

    constructor ()
      ensures store == map[]
    {
      store := map[];
    }

    /** `customRateLimiter` for the client `key` at instant `now`. */
    method Check(key: string, now: int, maxRequests: int, windowMs: int) returns (d: Decision)
      modifies this
      ensures (store, d) == Step(old(store), key, now, maxRequests, windowMs)
    {
      // The loop establishes `Sweep(old(store), now)`.
      var pending := store.Keys;
      while pending != {}
        invariant pending <= old(store).Keys
        invariant store == map k | k in old(store) && (k in pending || !Expired(old(store)[k], now)) :: old(store)[k]
        decreases pending
      {
        var ip :| ip in pending;
        if Expired(store[ip], now) {
          store := store - {ip};
        }
        pending := pending - {ip};
      }
      assert store == Sweep(old(store), now);

      // `customRateLimiter`'s second expiry test on the caller's own window
      // can no longer succeed here: the sweep has removed every expired window.
      assert key in store ==> !Expired(store[key], now);

      // Initialise or increment the caller's window.
      var entry: Window;
      if key !in store {
        entry := Window(1, now + windowMs);
      } else {
        entry := Window(store[key].count + 1, store[key].resetAt);
      }
      store := store[key := entry];

      if entry.count > maxRequests {
        d := Limited(CeilDiv(entry.resetAt - now, 1000), entry.resetAt);
      } else {
        d := Allowed(maxRequests - entry.count, entry.resetAt);
      }
    }
  }

  /** Consecutive `customRateLimiter` calls for one key at the given instants,
      each on the store the previous one left: the final store and every
      decision in order. */
  function Calls(m: map<string, Window>, key: string, times: seq<int>, maxRequests: int, windowMs: int)
    : (r: (map<string, Window>, seq<Decision>))
    ensures |r.1| == |times|
    decreases |times|
  {
    if times == [] then (m, [])
    else
      var (m1, d) := Step(m, key, times[0], maxRequests, windowMs);
      var (mn, ds) := Calls(m1, key, times[1..], maxRequests, windowMs);
      (mn, [d] + ds)
  }

  /** While a window is live, every call raises its count by one and keeps its
      reset instant; the call whose count passes the limit and every later one
      is refused. */
  lemma {:induction false} CallsInLiveWindow(m: map<string, Window>, key: string, times: seq<int>,
                                             seen: int, resetAt: int, maxRequests: int, windowMs: int)
    requires key in m && m[key] == Window(seen, resetAt)
    requires forall i :: 0 <= i < |times| ==> times[i] <= resetAt
    ensures var ds := Calls(m, key, times, maxRequests, windowMs).1;
            forall i :: 0 <= i < |times| ==>
              ds[i] == Decide(Window(seen + i + 1, resetAt), times[i], maxRequests)
    decreases |times|
  {
    if times != [] {
      var (m1, d) := Step(m, key, times[0], maxRequests, windowMs);
      assert m1[key] == Window(seen + 1, resetAt);
      CallsInLiveWindow(m1, key, times[1..], seen + 1, resetAt, maxRequests, windowMs);
      var ds := Calls(m, key, times, maxRequests, windowMs).1;
      var rest := Calls(m1, key, times[1..], maxRequests, windowMs).1;
      assert ds == [d] + rest;
      forall i | 0 <= i < |times|
        ensures ds[i] == Decide(Window(seen + i + 1, resetAt), times[i], maxRequests)
      {
        if i > 0 {
          assert ds[i] == rest[i - 1];
          assert times[1..][i - 1] == times[i];
        }
      }
    }
  }

  /** With limit N, a key with no live window gets N calls through within one
      window and the (N+1)th and later calls are refused, with the window that
      the first call opened. */
  lemma FirstNPass(m: map<string, Window>, key: string, times: seq<int>, maxRequests: int, windowMs: int)
    requires |times| > 0
    requires key !in m || Expired(m[key], times[0])
    requires forall i :: 0 <= i < |times| ==> times[i] <= times[0] + windowMs
    ensures var ds := Calls(m, key, times, maxRequests, windowMs).1;
            forall i :: 0 <= i < |times| ==>
              ds[i].resetAt == times[0] + windowMs &&
              (ds[i].Allowed? <==> i < maxRequests) &&
              (ds[i].Allowed? ==> ds[i].remaining == maxRequests - i - 1)
  {
    var (m1, d) := Step(m, key, times[0], maxRequests, windowMs);
    assert m1[key] == Window(1, times[0] + windowMs);
    CallsInLiveWindow(m1, key, times[1..], 1, times[0] + windowMs, maxRequests, windowMs);
    var ds := Calls(m, key, times, maxRequests, windowMs).1;
    var rest := Calls(m1, key, times[1..], maxRequests, windowMs).1;
    assert ds == [d] + rest;
    forall i | 0 <= i < |times|
      ensures ds[i] == Decide(Window(i + 1, times[0] + windowMs), times[i], maxRequests)
    {
      if i > 0 {
        assert ds[i] == rest[i - 1];
        assert times[1..][i - 1] == times[i];
      }
    }
  }

  /** A refused call is still counted: the stored window carries the raised
      count, so every further call in the window is refused as well. */
  lemma RefusedCallIsCounted(m: map<string, Window>, key: string, now: int, later: int,
                             maxRequests: int, windowMs: int)
    requires Step(m, key, now, maxRequests, windowMs).1.Limited?
    requires now <= later <= Step(m, key, now, maxRequests, windowMs).0[key].resetAt
    ensures var (m1, d) := Step(m, key, now, maxRequests, windowMs);
            m1[key].count > maxRequests &&
            Step(m1, key, later, maxRequests, windowMs).1.Limited? &&
            Step(m1, key, later, maxRequests, windowMs).0[key].count == m1[key].count + 1
  {
  }

  /** A call after the caller's window is over starts a fresh window, whatever
      the old count was. */
  lemma ExpiredWindowRestarts(m: map<string, Window>, key: string, now: int, maxRequests: int, windowMs: int)
    requires key in m && Expired(m[key], now)
    ensures Step(m, key, now, maxRequests, windowMs).0[key] == Window(1, now + windowMs)
  {
  }

  /** After a call, no stored window is expired at the call's instant, except
      possibly the caller's own fresh window when the window length is negative. */
  lemma NoExpiredAfterStep(m: map<string, Window>, key: string, now: int, maxRequests: int, windowMs: int)
    requires windowMs >= 0
    ensures var r := Step(m, key, now, maxRequests, windowMs).0;
            forall k :: k in r ==> !Expired(r[k], now)
  {
  }

  /** The refusal's `Retry-After` is never negative when the window length is not. */
  lemma RetryAfterNonNegative(m: map<string, Window>, key: string, now: int, maxRequests: int, windowMs: int)
    requires windowMs >= 0
    ensures var d := Step(m, key, now, maxRequests, windowMs).1;
            d.Limited? ==> d.retryAfter >= 0
  {
    NoExpiredAfterStep(m, key, now, maxRequests, windowMs);
  }
}

=== FILE: routing.dfy ===
/** The two request-level decisions of functions/index.ts that come before any
    handler: the CORS origin callback and the static-file test of the default
    `fetch` export, which hands a request either to the static assets or to the
    API application. */
module Routing {
  import opened Text

  /** The four origins of the CORS callback. */
  const AllowedOrigins: seq<string> := [
    "https://cflaircounter.pages.dev",
    "https://counter.vkrishna04.me",
    "http://localhost:8788",
    "http://127.0.0.1:8788"
  ]

  /** `allowedOrigins.some((allowed) => origin.startsWith(allowed))`. */
  predicate AllowedOrigin(origin: string) {
    exists i | 0 <= i < |AllowedOrigins| :: StartsWith(origin, AllowedOrigins[i])
  }

  /** The `Access-Control-Allow-Origin` value: a truthy origin that starts with
      an allowed one is echoed, any other request gets "*". */
  function CorsOrigin(origin: Option<string>): (r: string)
    ensures r != "*" ==> Truthy(origin) && r == origin.value
    ensures Truthy(origin) && AllowedOrigin(origin.value) ==> r == origin.value
    ensures !(Truthy(origin) && AllowedOrigin(origin.value)) ==> r == "*"
  {
    if Truthy(origin) && AllowedOrigin(origin.value) then origin.value else "*"
  }

  /** Every allowed origin is echoed; a missing or empty origin, or any other
      origin, gets the wildcard. */
  lemma CorsOriginCases(origin: string)
    ensures origin in AllowedOrigins ==> CorsOrigin(Some(origin)) == origin
    ensures !AllowedOrigin(origin) ==> CorsOrigin(Some(origin)) == "*"
    ensures CorsOrigin(None) == "*" && CorsOrigin(Some("")) == "*"
  {
    if origin in AllowedOrigins {
      var i :| 0 <= i < |AllowedOrigins| && AllowedOrigins[i] == origin;
      assert StartsWith(origin, AllowedOrigins[i]);
    }
  }

  /** Matching is by prefix, so an origin that merely extends an allowed one
      (another host name or port) is echoed as well. */
  lemma PrefixMatchAdmitsExtensions(suffix: string)
    ensures CorsOrigin(Some("https://counter.vkrishna04.me" + suffix)) == "https://counter.vkrishna04.me" + suffix
  {
    var o := "https://counter.vkrishna04.me" + suffix;
    assert o[..|AllowedOrigins[1]|] == AllowedOrigins[1];
    assert StartsWith(o, AllowedOrigins[1]);
  }

  /** The extensions of `/\.(html|css|...|webp)$/i`. */
  const StaticExtensions: seq<string> :=
    ["html", "css", "js", "png", "jpg", "jpeg", "gif", "svg", "ico", "woff", "woff2", "ttf", "json", "webp"]

  /** The path ends with a dot and one of the extensions, letters compared
      without regard to ASCII case. */
  predicate HasStaticExtension(pathname: string) {
    exists i | 0 <= i < |StaticExtensions| :: EndsWith(ToLower(pathname), "." + StaticExtensions[i])
  }

  datatype Target = Assets | Application

  /** The default `fetch` export: "/" and "/index.html" exactly, and any path
      with a static extension, go to the static assets; the rest to the API. */
  function Route(pathname: string): (t: Target)
    ensures t == Assets <==> pathname == "/" || pathname == "/index.html" || HasStaticExtension(pathname)
    ensures t == Application <==> pathname != "/" && pathname != "/index.html" && !HasStaticExtension(pathname)
  {
    if pathname == "/" || pathname == "/index.html" || HasStaticExtension(pathname) then Assets
    else Application
  }

  lemma LowerIdempotent(s: string)
    ensures ToLower(ToLower(s)) == ToLower(s)
  {
  }

  /** A path without a dot never has a static extension. */
  lemma DotlessHasNoExtension(pathname: string)
    requires forall i :: 0 <= i < |pathname| ==> pathname[i] != '.'
    ensures !HasStaticExtension(pathname)
  {
    var low := ToLower(pathname);
    forall i | 0 <= i < |StaticExtensions|
      ensures !EndsWith(low, "." + StaticExtensions[i])
    {
      var suffix := "." + StaticExtensions[i];
      if |suffix| <= |low| {
        var j := |low| - |suffix|;
        assert low[j] == AsciiLower(pathname[j]) != '.';
        assert low[j..][0] != suffix[0];
      }
    }
  }

  /** An API path without a dot always reaches the application. */
  lemma DotlessApiPathsReachApplication(pathname: string)
    requires StartsWith(pathname, "/api/")
    requires forall i :: 0 <= i < |pathname| ==> pathname[i] != '.'
    ensures Route(pathname) == Application
  {
    DotlessHasNoExtension(pathname);
    assert pathname[1] == 'a';
  }

  /** A project whose name ends in ".js" (or any other static extension) can
      never be counted: its API paths are served as static assets. */
  lemma DottedProjectNameGoesToAssets(name: string)
    ensures Route("/api/views/" + name + ".js") == Assets
  {
    var p := "/api/views/" + name + ".js";
    var low := ToLower(p);
    assert p[|p| - 3..] == ".js";
    assert low[|low| - 3..] == ".js";
    assert EndsWith(low, "." + StaticExtensions[2]);
  }

  /** The decision is insensitive to the ASCII case of the path: "/INDEX.HTML"
      goes where "/index.html" goes. */
  lemma RouteIgnoresCase(pathname: string)
    ensures Route(ToLower(pathname)) == Route(pathname)
  {
    var low := ToLower(pathname);
    LowerIdempotent(pathname);
    assert HasStaticExtension(low) == HasStaticExtension(pathname);
    if low == "/" {
      assert AsciiLower(pathname[0]) == '/';
    } else if low == "/index.html" {
      assert EndsWith(ToLower(pathname), "." + StaticExtensions[0]) by {
        assert low[|low| - 5..] == ".html";
      }
    }
  }
}

=== FILE: service_worker.dfy ===
/** The service worker of public/sw.js: how a fetch is classified and
    dispatched, and what each handler answers and leaves in Cache Storage.

    Cache Storage is a map from cache name to a cache, and a cache maps a
    request URL to a stored response. A network fetch is not performed here:
    its outcome is a parameter, either a response or a network error. */
module ServiceWorker {
  import opened Text

  const CacheName: string := "cflaircounter-v2.0"
  const ApiCacheName: string := "cflaircounter-api-v2.0"

  const GoogleFonts: string := "fonts.googleapis.com"
  const GoogleFontFiles: string := "fonts.gstatic.com"
  const Cdnjs: string := "cdnjs.cloudflare.com"
  const Tailwind: string := "cdn.tailwindcss.com"

  /** The four content-delivery hosts `isStaticResource` also accepts. */
  const CdnHosts: seq<string> := [GoogleFonts, GoogleFontFiles, Cdnjs, Tailwind]

  /** `STATIC_RESOURCES`: two local paths and five absolute URLs (written
      here with their host constants). */
  const StaticResources: seq<string> := [
    "/",
    "/index.html",
    "https://" + Tailwind,
    "https://" + Cdnjs + "/ajax/libs/animejs/3.2.1/anime.min.js",
    "https://" + Cdnjs + "/ajax/libs/particles.js/2.0.0/particles.min.js",
    "https://" + Cdnjs + "/ajax/libs/font-awesome/6.5.1/css/all.min.css",
    "https://" + GoogleFonts
      + "/css2?family=Inter:wght@300;400;500;600;700;800&family=JetBrains+Mono:wght@400;500;600&display=swap"
  ]

  predicate FromCdn(url: string) {
    exists i | 0 <= i < |CdnHosts| :: Contains(url, CdnHosts[i])
  }

  /** `isStaticResource(request.url)`: the URL contains one of the static
      resources, or one of the hosts, as a substring. */
  predicate IsStaticResource(url: string) {
    (exists i | 0 <= i < |StaticResources| :: Contains(url, StaticResources[i])) || FromCdn(url)
  }

  /** `isAPIRequest(url.pathname)`. */
  predicate IsApiRequest(pathname: string) {
    StartsWith(pathname, "/api/") && !Contains(pathname, "/badge")
  }

  /** `isBadgeRequest(url.pathname)`. */
  predicate IsBadgeRequest(pathname: string) {
    Contains(pathname, "/badge")
  }

  /** The handler a fetch event goes to; `Skip` means no `respondWith`. */
  datatype Route = Skip | Static | Api | BadgeRoute | Generic

  /** The fetch listener's dispatch as written: non-GET requests are skipped,
      then the static test, the API test and the badge test in that order. */
  function Dispatch(verb: string, url: string, pathname: string): (r: Route)
    ensures r == Skip <==> verb != "GET"
    ensures r == Static <==> verb == "GET" && IsStaticResource(url)
    ensures r == Api <==> verb == "GET" && !IsStaticResource(url) && IsApiRequest(pathname)
    ensures r == BadgeRoute <==>
              verb == "GET" && !IsStaticResource(url) && !IsApiRequest(pathname) && IsBadgeRequest(pathname)
    ensures r == Generic <==>
              verb == "GET" && !IsStaticResource(url) && !IsApiRequest(pathname) && !IsBadgeRequest(pathname)
  {
    if verb != "GET" then Skip
    else if IsStaticResource(url) then Static
    else if IsApiRequest(pathname) then Api
    else if IsBadgeRequest(pathname) then BadgeRoute
    else Generic
  }

  /** A path is never both an API request and a badge request. */
  lemma ApiAndBadgeExclusive(pathname: string)
    ensures !(IsApiRequest(pathname) && IsBadgeRequest(pathname))
    ensures StartsWith(pathname, "/api/") ==> IsApiRequest(pathname) || IsBadgeRequest(pathname)
  {
  }

  /** As written, "/" is one of the static resources and matching is by
      substring, so every GET whose URL contains a slash (every absolute URL)
      is dispatched to the static handler. */
  lemma {:induction false} EverySlashUrlIsStatic(url: string, pathname: string)
    requires Contains(url, "/")
    ensures Dispatch("GET", url, pathname) == Static
  {
    assert StaticResources[0] == "/";
  }

  /** `s` cannot contain `sub` when a character of `sub` is missing from `s`. */
  lemma MissingCharNotContained(s: string, sub: string, c: char)
    requires c in sub && c !in s
    ensures !Contains(s, sub)
  {
    var j :| 0 <= j < |sub| && sub[j] == c;
    forall i | 0 <= i <= |s| - |sub|
      ensures !OccursAt(s, sub, i)
    {
      assert s[i + j] in s;
      assert s[i..i + |sub|][j] != sub[j];
    }
  }

  /** A string contains every infix of it. */
  lemma InfixContained(a: string, b: string, c: string)
    ensures Contains(a + b + c, b)
  {
    assert (a + b + c)[|a|..|a| + |b|] == b;
    assert OccursAt(a + b + c, b, |a|);
  }

  /** The static test the resource list evidently means: the two local
      resources by exact path, the external ones by their host. */
  predicate IsStaticResourceIntended(url: string, pathname: string) {
    pathname == "/" || pathname == "/index.html" || FromCdn(url)
  }

  /** The dispatch with the intended static test; the rest is unchanged. */
  function DispatchCorrected(verb: string, url: string, pathname: string): (r: Route)
    ensures r == Skip <==> verb != "GET"
    ensures r == Static <==> verb == "GET" && IsStaticResourceIntended(url, pathname)
  {
    if verb != "GET" then Skip
    else if IsStaticResourceIntended(url, pathname) then Static
    else if IsApiRequest(pathname) then Api
    else if IsBadgeRequest(pathname) then BadgeRoute
    else Generic
  }

  /** With the intended test, a same-origin GET reaches the handler its path
      names: API paths the network-first handler, badge paths the badge
      handler, anything else other than the two local resources the generic one. */
  lemma CorrectedReachesEveryHandler(url: string, pathname: string)
    requires !FromCdn(url)
    ensures IsApiRequest(pathname) ==> DispatchCorrected("GET", url, pathname) == Api
    ensures IsBadgeRequest(pathname) ==>
              DispatchCorrected("GET", url, pathname) == BadgeRoute
    ensures !IsApiRequest(pathname) && !IsBadgeRequest(pathname) && pathname != "/" && pathname != "/index.html" ==>
              DispatchCorrected("GET", url, pathname) == Generic
  {
    if IsApiRequest(pathname) {
      assert pathname[1] == 'a';
    }
    MissingCharNotContained("/", "/badge", 'b');
    MissingCharNotContained("/index.html", "/badge", 'b');
  }

  /** The corrected test still treats every listed resource as static: the
      local ones by path and the external ones by host. */
  lemma CorrectedKeepsStaticResources(origin: string)
    ensures IsStaticResourceIntended(origin + "/", "/")
    ensures IsStaticResourceIntended(origin + "/index.html", "/index.html")
    ensures forall i | 2 <= i < |StaticResources| :: FromCdn(StaticResources[i])
  {
    InfixContained("https://", Tailwind, "");
    assert StaticResources[2] == "https://" + Tailwind + "";
    InfixContained("https://", Cdnjs, "/ajax/libs/animejs/3.2.1/anime.min.js");
    InfixContained("https://", Cdnjs, "/ajax/libs/particles.js/2.0.0/particles.min.js");
    InfixContained("https://", Cdnjs, "/ajax/libs/font-awesome/6.5.1/css/all.min.css");
    InfixContained("https://", GoogleFonts,
      "/css2?family=Inter:wght@300;400;500;600;700;800&family=JetBrains+Mono:wght@400;500;600&display=swap");
    assert Contains(StaticResources[2], CdnHosts[3]);
    assert Contains(StaticResources[3], CdnHosts[2]);
    assert Contains(StaticResources[4], CdnHosts[2]);
    assert Contains(StaticResources[5], CdnHosts[2]);
    assert Contains(StaticResources[6], CdnHosts[0]);
  }

  /** The discrepancy: a same-origin GET for an API path is handled by the
      cache-first static handler as written, and by the network-first API
      handler once corrected. */
  lemma AbsoluteApiUrlMisrouted(host: string, pathname: string)
    requires IsApiRequest(pathname) && !FromCdn("https://" + host + pathname)
    ensures Dispatch("GET", "https://" + host + pathname, pathname) == Static
    ensures DispatchCorrected("GET", "https://" + host + pathname, pathname) == Api
  {
    var url := "https://" + host + pathname;
    assert url == "https:" + "/" + ("/" + host + pathname);
    InfixContained("https:", "/", "/" + host + pathname);
    EverySlashUrlIsStatic(url, pathname);
    CorrectedReachesEveryHandler(url, pathname);
  }

  /** A URL without the letters f, j and w names none of the content-delivery hosts. */
  lemma NoCdnLetters(url: string)
    requires 'f' !in url && 'j' !in url && 'w' !in url
    ensures !FromCdn(url)
  {
    MissingCharNotContained(url, GoogleFonts, 'f');
    MissingCharNotContained(url, GoogleFontFiles, 'f');
    MissingCharNotContained(url, Cdnjs, 'j');
    MissingCharNotContained(url, Tailwind, 'w');
  }

  const ProductionHost: string := "counter.vkrishna04.me"
  const StatsUrl: string := "https://" + ProductionHost + "/api/stats"

  lemma StatsUrlLacksF()
    ensures 'f' !in StatsUrl
  {
  }

  lemma StatsUrlLacksJ()
    ensures 'j' !in StatsUrl
  {
  }

  lemma StatsUrlLacksW()
    ensures 'w' !in StatsUrl
  {
  }

  /** The production host's statistics URL names no content-delivery host. */
  lemma StatsUrlNotFromCdn()
    ensures !FromCdn(StatsUrl)
  {
    StatsUrlLacksF();
    StatsUrlLacksJ();
    StatsUrlLacksW();
    NoCdnLetters(StatsUrl);
  }

  /** One such input: the statistics endpoint on the production host. */
  lemma StatsRequestMisrouted()
    ensures Dispatch("GET", StatsUrl, "/api/stats") == Static
    ensures DispatchCorrected("GET", StatsUrl, "/api/stats") == Api
  {
    var path := "/api/stats";
    StatsUrlNotFromCdn();
    MissingCharNotContained(path, "/badge", 'b');
    assert path[..5] == "/api/";
    AbsoluteApiUrlMisrouted(ProductionHost, path);
  }

  /** The `Date` header of a cached response as `new Date(...)` reads it: no
      header (`new Date(null)`, the epoch), a time in milliseconds, or text that
      does not parse (an invalid date). */
  datatype DateHeader = Missing | Parsed(ms: int) | Unparsable

  /** `now - cacheDate.getTime() > 3600000`; every comparison with the NaN of an
      invalid date is false. */
  predicate IsExpired(now: int, date: DateHeader) {
    match date
    case Missing => now > 3600000
    case Parsed(t) => now - t > 3600000
    case Unparsable => false
  }

  /** A cached badge is fresh for one hour after its date, inclusive; one
      without a date counts from the epoch, one with an unreadable date never
      expires. */
  lemma FreshnessWindow(now: int, t: int)
    ensures !IsExpired(now, Parsed(t)) <==> now <= t + 3600000
    ensures IsExpired(now, Missing) == IsExpired(now, Parsed(0))
    ensures !IsExpired(now, Unparsable)
  {
  }

  datatype Response = Response(status: int, body: string, date: DateHeader)

  /** `response.ok`. */
  predicate Ok(r: Response) {
    200 <= r.status <= 299
  }

  /** What a `fetch` yields: a response (of any status) or a rejection. */
  datatype Fetch = NetworkError | Fetched(response: Response)

  const ApiOffline: Response :=
    Response(503, "{\"success\":false,\"error\":\"Offline - no cached data available\"}", Missing)
  const BadgeOffline: Response :=
    Response(200,
      "<svg xmlns=\"http://www.w3.org/2000/svg\" width=\"104\" height=\"20\"><rect width=\"104\" height=\"20\" fill=\"#555\"/><text x=\"52\" y=\"15\" fill=\"white\" text-anchor=\"middle\" font-family=\"Arial\" font-size=\"11\">Offline</text></svg>",
      Missing)
  const StaticUnavailable: Response := Response(503, "Resource not available", Missing)
  const GenericOffline: Response := Response(503, "Offline", Missing)

  type Caches = map<string, map<string, Response>>

  /** `caches.open(name)`: an absent cache is created empty. */
  function Opened(c: Caches, name: string): (r: Caches)
    ensures name in r && forall n :: n in r <==> n in c || n == name
    ensures forall n :: n in c ==> r[n] == c[n]
    ensures name !in c ==> r[name] == map[]
  {
    if name in c then c else c[name := map[]]
  }

  /** `cache.match(url)` in the named cache. */
  function Lookup(c: Caches, name: string, url: string): Option<Response> {
    if name in c && url in c[name] then Some(c[name][url]) else None
  }

  /** `cache.put(url, response)` on the named cache, opening it first. */
  function Stored(c: Caches, name: string, url: string, resp: Response): (r: Caches)
    ensures Lookup(r, name, url) == Some(resp)
    ensures forall n, u :: (n, u) != (name, url) ==> Lookup(r, n, u) == Lookup(c, n, u)
    ensures forall n :: n in r <==> n in c || n == name
  {
    var o := Opened(c, name);
    o[name := o[name][url := resp]]
  }

  /** `handleAPIRequest`, network first: an ok response is stored and returned,
      any other response is returned; on a network error the stored response,
      else a 503 JSON error. */
  function ApiStep(c: Caches, url: string, net: Fetch): (r: (Caches, Response))
    ensures forall n, u :: (n, u) != (ApiCacheName, url) ==> Lookup(r.0, n, u) == Lookup(c, n, u)
    ensures net.Fetched? ==> r.1 == net.response
    ensures net.Fetched? && Ok(net.response) ==> Lookup(r.0, ApiCacheName, url) == Some(net.response)
    ensures net.Fetched? && !Ok(net.response) ==> Lookup(r.0, ApiCacheName, url) == Lookup(c, ApiCacheName, url)
    ensures net.NetworkError? ==> Lookup(r.0, ApiCacheName, url) == Lookup(c, ApiCacheName, url)
    ensures net.NetworkError? ==>
              r.1 == (if Lookup(c, ApiCacheName, url).Some? then Lookup(c, ApiCacheName, url).value else ApiOffline)
  {
    match net
    case Fetched(resp) => (if Ok(resp) then Stored(c, ApiCacheName, url, resp) else c, resp)
    case NetworkError =>
      var cached := Lookup(c, ApiCacheName, url);
      (Opened(c, ApiCacheName), if cached.Some? then cached.value else ApiOffline)
  }

  /** `handleBadgeRequest`: a stored badge that has not expired is returned
      without fetching; otherwise the network answer is returned and stored
      when ok; on a network error the stored badge, however old, else the
      "Offline" badge with status 200. */
  function BadgeStep(c: Caches, url: string, now: int, net: Fetch): (r: (Caches, Response))
    ensures forall n, u :: (n, u) != (ApiCacheName, url) ==> Lookup(r.0, n, u) == Lookup(c, n, u)
    ensures Lookup(r.0, ApiCacheName, url) != Lookup(c, ApiCacheName, url) ==>
              net.Fetched? && Ok(net.response) && Lookup(r.0, ApiCacheName, url) == Some(net.response)
    ensures var cached := Lookup(c, ApiCacheName, url);
            var hit := cached.Some? && !IsExpired(now, cached.value.date);
            && (hit ==> r.1 == cached.value && Lookup(r.0, ApiCacheName, url) == cached)
            && (!hit && net.Fetched? ==> r.1 == net.response)
            && (!hit && net.Fetched? && Ok(net.response) ==> Lookup(r.0, ApiCacheName, url) == Some(net.response))
            && (!hit && net.NetworkError? ==> r.1 == (if cached.Some? then cached.value else BadgeOffline))
  {
    var o := Opened(c, ApiCacheName);
    var cached := Lookup(c, ApiCacheName, url);
    if cached.Some? && !IsExpired(now, cached.value.date) then (o, cached.value)
    else
      match net
      case Fetched(resp) => (if Ok(resp) then Stored(c, ApiCacheName, url, resp) else o, resp)
      case NetworkError => (o, if cached.Some? then cached.value else BadgeOffline)
  }

  /** `handleStaticResource`, cache first: a stored response is returned and
      the background fetch, when ok, refreshes it; otherwise the network answer
      is returned and stored when ok; on a network error a 503. */
  function StaticStep(c: Caches, url: string, net: Fetch): (r: (Caches, Response))
    ensures forall n, u :: (n, u) != (CacheName, url) ==> Lookup(r.0, n, u) == Lookup(c, n, u)
    ensures Lookup(r.0, CacheName, url) != Lookup(c, CacheName, url) ==>
              net.Fetched? && Ok(net.response) && Lookup(r.0, CacheName, url) == Some(net.response)
    ensures Lookup(c, CacheName, url).Some? ==> r.1 == Lookup(c, CacheName, url).value
    ensures Lookup(c, CacheName, url).None? && net.Fetched? ==> r.1 == net.response
    ensures Lookup(c, CacheName, url).None? && net.NetworkError? ==> r.1 == StaticUnavailable
    ensures net.Fetched? && Ok(net.response) ==> Lookup(r.0, CacheName, url) == Some(net.response)
    ensures !(net.Fetched? && Ok(net.response)) ==> Lookup(r.0, CacheName, url) == Lookup(c, CacheName, url)
  {
    var o := Opened(c, CacheName);
    var cached := Lookup(c, CacheName, url);
    var refreshed := if net.Fetched? && Ok(net.response) then Stored(c, CacheName, url, net.response) else o;
    if cached.Some? then (refreshed, cached.value)
    else if net.Fetched? then (refreshed, net.response)
    else (o, StaticUnavailable)
  }

  /** `handleGenericRequest`: the network answer as is; on a network error the
      stored root page (`root` is the absolute URL of "/"), else a 503. */
  function GenericStep(c: Caches, root: string, net: Fetch): (r: (Caches, Response))
    ensures forall n, u :: Lookup(r.0, n, u) == Lookup(c, n, u)
    ensures net.Fetched? ==> r.1 == net.response
    ensures net.NetworkError? ==>
              r.1 == (if Lookup(c, CacheName, root).Some? then Lookup(c, CacheName, root).value else GenericOffline)
  {
    match net
    case Fetched(resp) => (c, resp)
    case NetworkError =>
      var cached := Lookup(c, CacheName, root);
      (Opened(c, CacheName), if cached.Some? then cached.value else GenericOffline)
  }

  /** The caches the `activate` listener keeps. */
  function Retained(c: Caches): (r: Caches)
    ensures forall n :: n in r <==> n in c && (n == CacheName || n == ApiCacheName)
    ensures forall n :: n in r ==> r[n] == c[n]
  {
    map n | n in c && (n == CacheName || n == ApiCacheName) :: c[n]
  }

  /** An ok API response is what a later offline request for the same URL gets. */
  lemma ApiFallsBackToLastOk(c: Caches, url: string, resp: Response)
    requires Ok(resp)
    ensures var (c1, r1) := ApiStep(c, url, Fetched(resp));
            r1 == resp && ApiStep(c1, url, NetworkError).1 == resp
  {
  }

  /** Offline with nothing stored, the API answers 503 and the badge route the
      placeholder badge with 200. */
  lemma OfflineAnswers(c: Caches, url: string, now: int)
    requires Lookup(c, ApiCacheName, url).None?
    ensures ApiStep(c, url, NetworkError).1.status == 503
    ensures BadgeStep(c, url, now, NetworkError).1 == BadgeOffline && BadgeOffline.status == 200
  {
  }

  /** A non-ok answer never enters a cache: the API cache keeps what it had. */
  lemma NonOkNeverStored(c: Caches, url: string, now: int, resp: Response)
    requires !Ok(resp)
    ensures Lookup(ApiStep(c, url, Fetched(resp)).0, ApiCacheName, url) == Lookup(c, ApiCacheName, url)
    ensures Lookup(BadgeStep(c, url, now, Fetched(resp)).0, ApiCacheName, url) == Lookup(c, ApiCacheName, url)
    ensures Lookup(StaticStep(c, url, Fetched(resp)).0, CacheName, url) == Lookup(c, CacheName, url)
  {
  }

  /** Offline, an expired stored badge is still answered, however old. */
  lemma BadgeStaleOffline(c: Caches, url: string, now: int)
    requires Lookup(c, ApiCacheName, url).Some? && IsExpired(now, Lookup(c, ApiCacheName, url).value.date)
    ensures BadgeStep(c, url, now, NetworkError).1 == Lookup(c, ApiCacheName, url).value
    ensures Lookup(BadgeStep(c, url, now, NetworkError).0, ApiCacheName, url) == Lookup(c, ApiCacheName, url)
  {
  }

  /** A fresh stored badge is answered whatever the network would have said,
      and leaves the stored badge as it was. */
  lemma FreshBadgeSkipsNetwork(c: Caches, url: string, now: int, net1: Fetch, net2: Fetch)
    requires Lookup(c, ApiCacheName, url).Some?
    requires !IsExpired(now, Lookup(c, ApiCacheName, url).value.date)
    ensures BadgeStep(c, url, now, net1) == BadgeStep(c, url, now, net2)
    ensures BadgeStep(c, url, now, net1).1 == Lookup(c, ApiCacheName, url).value
  {
  }

  /** An expired stored badge is replaced by an ok network answer, which is
      also what is returned. */
  lemma ExpiredBadgeRefetched(c: Caches, url: string, now: int, resp: Response)
    requires Lookup(c, ApiCacheName, url).Some? && IsExpired(now, Lookup(c, ApiCacheName, url).value.date)
    requires Ok(resp)
    ensures BadgeStep(c, url, now, Fetched(resp)).1 == resp
    ensures Lookup(BadgeStep(c, url, now, Fetched(resp)).0, ApiCacheName, url) == Some(resp)
  {
  }

  /** A stored static resource is served even when the network is down. */
  lemma StaticServedOffline(c: Caches, url: string)
    requires Lookup(c, CacheName, url).Some?
    ensures StaticStep(c, url, NetworkError).1 == Lookup(c, CacheName, url).value
  {
  }

  /** Activation keeps the two current caches with their contents and deletes
      every other one. */
  lemma ActivationKeepsCurrent(c: Caches, name: string)
    ensures name in Retained(c) <==> name in c && (name == CacheName || name == ApiCacheName)
    ensures CacheName in c ==> Lookup(Retained(c), CacheName, name) == Lookup(c, CacheName, name)
    ensures ApiCacheName in c ==> Lookup(Retained(c), ApiCacheName, name) == Lookup(c, ApiCacheName, name)
    ensures Retained(Retained(c)) == Retained(c)
  {
  }

  class CacheStorage {
    var caches: Caches

    constructor ()
      ensures caches == map[]
    {
      caches := map[];
    }

    /** `caches.open(name)`. */
    method Open(name: string)
      modifies this
      ensures caches == Opened(old(caches), name)
    {
      if name !in caches {
        caches := caches[name := map[]];
      }
    }

    /** `cache.put(url, response)` on an open cache. */
    method Put(name: string, url: string, resp: Response)
      requires name in caches
      modifies this
      ensures caches == Stored(old(caches), name, url, resp)
    {
      caches := caches[name := caches[name][url := resp]];
    }

    /** The `activate` listener: every cache other than the two current ones is deleted. */
    method Activate()
      modifies this
      ensures caches == Retained(old(caches))
    {
      var pending := caches.Keys;
      while pending != {}
        invariant pending <= old(caches).Keys
        invariant caches == map n | n in old(caches) && (n in pending || n == CacheName || n == ApiCacheName) :: old(caches)[n]
        decreases pending
      {
        var name :| name in pending;
        if name != CacheName && name != ApiCacheName {
          caches := caches - {name};
        }
        pending := pending - {name};
      }
    }

    method HandleApi(url: string, net: Fetch) returns (r: Response)
      modifies this
      ensures (caches, r) == ApiStep(old(caches), url, net)
    {
      if net.Fetched? {
        r := net.response;
        if Ok(r) {
          Open(ApiCacheName);
          Put(ApiCacheName, url, r);
        }
        return;
      }
      Open(ApiCacheName);
      var cached := Lookup(caches, ApiCacheName, url);
      if cached.Some? {
        return cached.value;
      }
      r := ApiOffline;
    }

    method HandleBadge(url: string, now: int, net: Fetch) returns (r: Response)
      modifies this
      ensures (caches, r) == BadgeStep(old(caches), url, now, net)
    {
      Open(ApiCacheName);
      var cached := Lookup(caches, ApiCacheName, url);
      if cached.Some? && !IsExpired(now, cached.value.date) {
        return cached.value;
      }
      if net.Fetched? {
        r := net.response;
        if Ok(r) {
          Put(ApiCacheName, url, r);
        }
        return;
      }
      if cached.Some? {
        return cached.value;
      }
      r := BadgeOffline;
    }

    method HandleStatic(url: string, net: Fetch) returns (r: Response)
      modifies this
      ensures (caches, r) == StaticStep(old(caches), url, net)
    {
      Open(CacheName);
      var cached := Lookup(caches, CacheName, url);
      if cached.Some? {
        // the background refresh
        if net.Fetched? && Ok(net.response) {
          Put(CacheName, url, net.response);
        }
        return cached.value;
      }
      if net.NetworkError? {
        return StaticUnavailable;
      }
      r := net.response;
      if Ok(r) {
        Put(CacheName, url, r);
      }
    }

    method HandleGeneric(root: string, net: Fetch) returns (r: Response)
      modifies this
      ensures (caches, r) == GenericStep(old(caches), root, net)
    {
      if net.Fetched? {
        return net.response;
      }
      Open(CacheName);
      var cached := Lookup(caches, CacheName, root);
      if cached.Some? {
        return cached.value;
      }
      r := GenericOffline;
    }

    /** The fetch listener, dispatching with the intended static test; `None`
        when the request is left to the browser. */
    method OnFetch(verb: string, url: string, pathname: string, root: string, now: int, net: Fetch)
      returns (r: Option<Response>)
      modifies this
      ensures r.None? <==> verb != "GET"
      ensures verb != "GET" ==> caches == old(caches)
      ensures match DispatchCorrected(verb, url, pathname)
              case Skip => true
              case Static => (caches, r.value) == StaticStep(old(caches), url, net)
              case Api => (caches, r.value) == ApiStep(old(caches), url, net)
              case BadgeRoute => (caches, r.value) == BadgeStep(old(caches), url, now, net)
              case Generic => (caches, r.value) == GenericStep(old(caches), root, net)
    {
      var route := DispatchCorrected(verb, url, pathname);
      var resp: Response;
      match route {
        case Skip => return None;
        case Static => resp := HandleStatic(url, net);
        case Api => resp := HandleApi(url, net);
        case BadgeRoute => resp := HandleBadge(url, now, net);
        case Generic => resp := HandleGeneric(root, net);
      }
      r := Some(resp);
    }
  }
}

=== FILE: text.dfy ===
/** Strings as the worker and the service worker see them: optional header and
    query values with JavaScript truthiness, substring tests, and lengths
    counted in UTF-16 code units as `String.prototype.length` counts them. */
module Text {

  datatype Option<+T> = None | Some(value: T)

  /** `v || fallback` on an optional string: both an absent value and "" are falsy. */
  predicate Truthy(v: Option<string>) {
    v.Some? && v.value != ""
  }

  function OrElse(v: Option<string>, fallback: string): (r: string)
    ensures Truthy(v) ==> r == v.value
    ensures !Truthy(v) ==> r == fallback
  {
    if Truthy(v) then v.value else fallback
  }

  predicate StartsWith(s: string, prefix: string) {
    |prefix| <= |s| && s[..|prefix|] == prefix
  }

  predicate EndsWith(s: string, suffix: string) {
    |suffix| <= |s| && s[|s| - |suffix|..] == suffix
  }

  /** `sub` occurs in `s` starting at index `i`. */
  predicate OccursAt(s: string, sub: string, i: int) {
    0 <= i <= |s| - |sub| && s[i..i + |sub|] == sub
  }

  /** `s.includes(sub)`. */
  predicate Contains(s: string, sub: string) {
    exists i | 0 <= i <= |s| - |sub| :: OccursAt(s, sub, i)
  }

  /** The UTF-16 code units of a string of Unicode scalar values, as `charCodeAt` yields them. */
  function Utf16(s: string): (units: seq<int>)
    ensures |units| >= |s|
    ensures forall i :: 0 <= i < |units| ==> 0 <= units[i] < 0x1_0000
  {
    if s == [] then []
    else
      var c := s[0] as int;
      var head := if c < 0x1_0000 then [c]
                  else [0xD800 + (c - 0x1_0000) / 0x400, 0xDC00 + (c - 0x1_0000) % 0x400];
      head + Utf16(s[1..])
  }

  /** `s.length` in JavaScript. */
  function JsLength(s: string): nat {
    |Utf16(s)|
  }

  /** A string of characters below U+10000 has one code unit per character. */
  lemma {:induction false} Utf16OfBmp(s: string)
    requires forall i :: 0 <= i < |s| ==> (s[i] as int) < 0x1_0000
    ensures JsLength(s) == |s|
  {
    if s != [] {
      Utf16OfBmp(s[1..]);
    }
  }

  function AsciiUpper(c: char): char {
    if 'a' <= c <= 'z' then (c as int - 32) as char else c
  }

  function AsciiLower(c: char): char {
    if 'A' <= c <= 'Z' then (c as int + 32) as char else c
  }

  function ToUpper(s: string): (r: string)
    ensures |r| == |s|
    ensures forall i :: 0 <= i < |s| ==> r[i] == AsciiUpper(s[i])
  {
    seq(|s|, i requires 0 <= i < |s| => AsciiUpper(s[i]))
  }

  function ToLower(s: string): (r: string)
    ensures |r| == |s|
    ensures forall i :: 0 <= i < |s| ==> r[i] == AsciiLower(s[i])
  {
    seq(|s|, i requires 0 <= i < |s| => AsciiLower(s[i]))
  }
}

=== FILE: worker.dfy ===
/** The view-counter API of functions/index.ts over its three tables, held as
    maps: `project_views` (name to counts), `visitor_tracking` ((name, visitor
    hash) to visit count) and `usage_stats` (date to three counters). Each
    handler is its route's fixed order of checks followed by its table
    updates; SQL upserts, counts and deletes become map updates. */
module Worker {
  import opened Text
  import opened Numerals
  import RateLimit
  import Fingerprint
  import Badge

  datatype Project = Project(viewCount: nat, uniqueViews: nat, description: Option<string>)

  datatype Usage = Usage(requestsCount: nat, rowsRead: nat, rowsWritten: nat)

  /** The worker's environment; the numeric settings are already parsed. */
  datatype Env = Env(
    adminPassword: Option<string>,
    enableAdmin: Option<string>,
    enableAnalytics: Option<string>,
    rateLimitRequests: int,
    rateLimitWindow: int)

  /** A JSON request body as the admin routes read it: one whose `password`
      cannot be read (the body does not parse, or is `null`), one without a
      `password` field (a primitive or an object lacking it), or one with it. */
  datatype Body = Unparseable | NoPassword | Password(password: string)

  datatype Reply =
    | InvalidName
    | RateLimited(retryAfter: int, resetAt: int)
    | Views(projectName: string, totalViews: nat, uniqueViews: nat, description: Option<string>)
    | Incremented(projectName: string, totalViews: nat, uniqueViews: nat)
    | BadgeSvg(badge: Badge.Badge)
    | GlobalStats(totalViews: nat, uniqueTotal: Option<nat>, totalProjects: nat, analyticsEnabled: bool)
    | AdminStatistics(totalViews: nat, uniqueViews: nat, totalProjects: nat)
    | Deleted(projectName: string)
    | Forbidden
    | Unauthorized
    | NotFound
    | BadRequest
  {
    function Status(): int {
      match this
      case InvalidName => 400
      case BadRequest => 400
      case Unauthorized => 401
      case Forbidden => 403
      case NotFound => 404
      case RateLimited(_, _) => 429
      case _ => 200
    }
  }

  /** `!projectName || projectName.length > 100` rejects a name. */
  predicate ValidName(name: string) {
    name != "" && JsLength(name) <= 100
  }

  /** `c.env.FLAG !== "false"`: a feature is on unless set to exactly "false". */
  predicate Enabled(flag: Option<string>) {
    flag != Some("false")
  }

  /** The password a DELETE carries: the token after "Bearer " in the
      Authorization header, else the body's `password`, else "". */
  function DeletePassword(authorization: Option<string>, body: Body): (password: string)
    ensures authorization.Some? && StartsWith(authorization.value, "Bearer ") ==>
              password == authorization.value[7..]
    ensures !(authorization.Some? && StartsWith(authorization.value, "Bearer ")) ==>
              password == (if body.Password? then body.password else "")
  {
    if authorization.Some? && StartsWith(authorization.value, "Bearer ") then authorization.value[7..]
    else if body.Password? then body.password
    else ""
  }

  datatype Gate = Open | Disabled | Denied

  /** The admin gate: 403 when admin is switched off, whatever the password;
      otherwise 401 unless the password is non-empty and equals the secret. */
  function AdminGate(env: Env, password: string): (g: Gate)
    ensures g == Disabled <==> !Enabled(env.enableAdmin)
    ensures g == Open <==> Enabled(env.enableAdmin) && password != "" && env.adminPassword == Some(password)
  {
    if !Enabled(env.enableAdmin) then Disabled
    else if password == "" || env.adminPassword != Some(password) then Denied
    else Open
  }

  /** With no secret configured, no password opens the gate. */
  lemma UnsetSecretNeverOpens(env: Env, password: string)
    requires env.adminPassword.None?
    ensures AdminGate(env, password) != Open
  {
  }

  /** The rows of `visitor_tracking` for one project. */
  function VisitorsOf(visitors: map<(string, string), nat>, name: string): set<(string, string)> {
    set k | k in visitors.Keys && k.0 == name
  }

  /** `SELECT COUNT(*) FROM visitor_tracking WHERE project_name = ?`. */
  function UniqueVisitors(visitors: map<(string, string), nat>, name: string): nat {
    |VisitorsOf(visitors, name)|
  }

  lemma VisitorsOfUpdate(visitors: map<(string, string), nat>, key: (string, string), n: nat, name: string)
    ensures VisitorsOf(visitors[key := n], name) ==
            if key.0 == name then VisitorsOf(visitors, name) + {key} else VisitorsOf(visitors, name)
  {
  }

  datatype Column = ViewCount | UniqueViews

  function Cell(p: Project, c: Column): nat {
    match c
    case ViewCount => p.viewCount
    case UniqueViews => p.uniqueViews
  }

  /** `COALESCE(SUM(column), 0)` over `project_views`. */
  ghost function Total(m: map<string, Project>, c: Column): nat
    decreases |m|
  {
    if m == map[] then 0
    else
      var k :| k in m;
      Cell(m[k], c) + Total(m - {k}, c)
  }

  /** The sum does not depend on which row is taken first. */
  lemma {:induction false} TotalRemove(m: map<string, Project>, k: string, c: Column)
    requires k in m
    ensures Total(m, c) == Cell(m[k], c) + Total(m - {k}, c)
    decreases |m|
  {
    var j :| j in m && Total(m, c) == Cell(m[j], c) + Total(m - {j}, c);
    if j != k {
      TotalRemove(m - {j}, k, c);
      TotalRemove(m - {k}, j, c);
      assert m - {j} - {k} == m - {k} - {j};
    }
  }

  /** Overwriting or adding one row changes the sum by that row's change. */
  lemma TotalUpdate(m: map<string, Project>, k: string, p: Project, c: Column)
    ensures k in m ==> Total(m[k := p], c) + Cell(m[k], c) == Total(m, c) + Cell(p, c)
    ensures k !in m ==> Total(m[k := p], c) == Total(m, c) + Cell(p, c)
  {
    TotalRemove(m[k := p], k, c);
    assert m[k := p] - {k} == m - {k};
    if k in m {
      TotalRemove(m, k, c);
    } else {
      assert m - {k} == m;
    }
  }

  /** Every visitor row belongs to a stored project and has been counted at
      least once; a project's stored unique count never exceeds its visitor
      rows, which never exceed its views. */
  ghost predicate ValidTables(projects: map<string, Project>, visitors: map<(string, string), nat>) {
    && (forall k :: k in visitors ==> k.0 in projects && visitors[k] >= 1)
    && (forall p :: p in projects ==> CountsOrdered(projects, visitors, p))
  }

  ghost predicate CountsOrdered(projects: map<string, Project>, visitors: map<(string, string), nat>, p: string)
    requires p in projects
  {
    projects[p].uniqueViews <= UniqueVisitors(visitors, p) <= projects[p].viewCount
  }

  lemma CardAddOne<T>(s: set<T>, x: T)
    ensures |s| <= |s + {x}| <= |s| + 1
  {
    if x !in s {
      assert |s + {x}| == |s| + 1;
    } else {
      assert s + {x} == s;
    }
  }

  /** A visit recorded against a project whose views already count it keeps the tables valid. */
  lemma UpsertVisitorKeepsValid(projects: map<string, Project>, visitors: map<(string, string), nat>,
                                key: (string, string), visits: nat)
    requires ValidTables(projects, visitors)
    requires key.0 in projects && UniqueVisitors(visitors, key.0) < projects[key.0].viewCount
    requires visits >= 1
    ensures ValidTables(projects, visitors[key := visits])
  {
    var v' := visitors[key := visits];
    forall p | p in projects
      ensures CountsOrdered(projects, v', p)
    {
      VisitorsOfUpdate(visitors, key, visits, p);
      if p == key.0 {
        CardAddOne(VisitorsOf(visitors, p), key);
      }
    }
  }

  /** Removing a project together with all its visitor rows keeps the tables valid. */
  lemma RemoveProjectKeepsValid(projects: map<string, Project>, visitors: map<(string, string), nat>, name: string)
    requires ValidTables(projects, visitors)
    ensures var kept := map k | k in visitors && k.0 != name :: visitors[k];
            ValidTables(projects - {name}, kept) && VisitorsOf(kept, name) == {}
  {
    var kept := map k | k in visitors && k.0 != name :: visitors[k];
    forall p | p in projects - {name}
      ensures VisitorsOf(kept, p) == VisitorsOf(visitors, p)
    {
    }
  }

  /** The project row after one more view: a new row starts at one view, no
      unique visitors and no description. */
  function Viewed(projects: map<string, Project>, name: string): Project {
    if name in projects then projects[name].(viewCount := projects[name].viewCount + 1)
    else Project(1, 0, None)
  }

  /** The visitor table after one more visit by `key`: a new row starts at one visit. */
  function Visited(visitors: map<(string, string), nat>, key: (string, string)): (r: map<(string, string), nat>)
    ensures key in r && r[key] >= 1
    ensures key in visitors ==> r[key] == visitors[key] + 1
    ensures key !in visitors ==> r[key] == 1
    ensures forall k :: k != key ==> (k in r <==> k in visitors)
    ensures forall k :: k != key && k in visitors ==> r[k] == visitors[k]
  {
    visitors[key := if key in visitors then visitors[key] + 1 else 1]
  }

  /** The usage table after `trackUsage` on `date`: the day's three counters
      rise by one, and a new day starts at one of each. */
  function Tracked(usage: map<string, Usage>, date: string): (r: map<string, Usage>)
    ensures date in r
    ensures date in usage ==>
              r[date] == Usage(usage[date].requestsCount + 1, usage[date].rowsRead + 1, usage[date].rowsWritten + 1)
    ensures date !in usage ==> r[date] == Usage(1, 1, 1)
    ensures forall d :: d != date ==> (d in r <==> d in usage)
    ensures forall d :: d != date && d in usage ==> r[d] == usage[d]
  {
    var day := if date in usage then usage[date] else Usage(0, 0, 0);
    usage[date := Usage(day.requestsCount + 1, day.rowsRead + 1, day.rowsWritten + 1)]
  }

  lemma OverwriteTwice<K, V>(m: map<K, V>, k: K, a: V, b: V)
    ensures m[k := a][k := b] == m[k := b]
  {
  }

  class CounterDb {
    var projects: map<string, Project>
    var visitors: map<(string, string), nat>
    var usage: map<string, Usage>

    ghost predicate Valid()
      reads this
    {
      ValidTables(projects, visitors)
    }

    constructor ()
      ensures Valid()
      ensures projects == map[] && visitors == map[] && usage == map[]
    {
      projects, visitors, usage := map[], map[], map[];
    }

    /** `trackUsage`: the day's three counters rise by one (a new day starts at one). */
    method TrackUsage(date: string)
      modifies this
      ensures projects == old(projects) && visitors == old(visitors)
      ensures usage == Tracked(old(usage), date)
    {
      var next := if date in usage
                  then Usage(usage[date].requestsCount + 1, usage[date].rowsRead + 1, usage[date].rowsWritten + 1)
                  else Usage(1, 1, 1);
      usage := usage[date := next];
    }

    /** `GET /api/views/:projectName`. */
    method Get(name: string) returns (r: Reply)
      ensures !ValidName(name) ==> r == InvalidName
      ensures ValidName(name) && name !in projects ==> r == Views(name, 0, 0, None)
      ensures ValidName(name) && name in projects ==>
                r == Views(name, projects[name].viewCount, projects[name].uniqueViews, projects[name].description)
    {
      if !ValidName(name) {
        return InvalidName;
      }
      if name !in projects {
        return Views(name, 0, 0, None);
      }
      var row := projects[name];
      r := Views(name, row.viewCount, row.uniqueViews, row.description);
    }

    /** `INSERT INTO project_views ... VALUES (?, 1) ON CONFLICT(project_name)
        DO UPDATE SET view_count = view_count + 1`. */
    method UpsertView(name: string)
      requires Valid()
      modifies this
      ensures Valid()
      ensures visitors == old(visitors) && usage == old(usage)
      ensures projects == old(projects)[name := Viewed(old(projects), name)]
      ensures name in projects && projects[name] == Viewed(old(projects), name)
      ensures UniqueVisitors(visitors, name) < projects[name].viewCount
      ensures Total(projects, ViewCount) == old(Total(projects, ViewCount)) + 1
    {
      var row := if name in projects
                 then projects[name].(viewCount := projects[name].viewCount + 1)
                 else Project(1, 0, None);
      TotalUpdate(projects, name, row, ViewCount);
      if name !in projects {
        assert VisitorsOf(visitors, name) == {};
      }
      projects := projects[name := row];
    }

    /** `INSERT INTO visitor_tracking ... VALUES (?, ?, 1) ON CONFLICT(project_name,
        visitor_hash) DO UPDATE SET visit_count = visit_count + 1`; the project's
        views must already count this visit. */
    method UpsertVisitor(name: string, visitorHash: string)
      requires Valid()
      requires name in projects && UniqueVisitors(visitors, name) < projects[name].viewCount
      modifies this
      ensures Valid()
      ensures projects == old(projects) && usage == old(usage)
      ensures visitors == Visited(old(visitors), (name, visitorHash))
      ensures (name, visitorHash) in VisitorsOf(visitors, name)
    {
      var key := (name, visitorHash);
      var visits := if key in visitors then visitors[key] + 1 else 1;
      UpsertVisitorKeepsValid(projects, visitors, key, visits);
      visitors := Visited(visitors, key);
    }

    /** `SELECT COUNT(*) FROM visitor_tracking WHERE project_name = ?` and
        `UPDATE project_views SET unique_views = ?`. */
    method RecountUnique(name: string) returns (uniqueViews: nat)
      requires Valid() && name in projects
      modifies this
      ensures Valid()
      ensures visitors == old(visitors) && usage == old(usage)
      ensures uniqueViews == UniqueVisitors(visitors, name)
      ensures projects == old(projects)[name := old(projects[name]).(uniqueViews := uniqueViews)]
      ensures Total(projects, ViewCount) == old(Total(projects, ViewCount))
    {
      uniqueViews := UniqueVisitors(visitors, name);
      var row := projects[name].(uniqueViews := uniqueViews);
      TotalUpdate(projects, name, row, ViewCount);
      projects := projects[name := row];
    }

    /** With analytics on: the visitor upsert, then the unique-count recompute
        and write-back. The project's views must already count this visit. */
    method RecordVisitor(name: string, visitorHash: string) returns (uniqueViews: nat)
      requires Valid()
      requires name in projects && UniqueVisitors(visitors, name) < projects[name].viewCount
      modifies this
      ensures Valid()
      ensures usage == old(usage)
      ensures visitors == Visited(old(visitors), (name, visitorHash))
      ensures uniqueViews == UniqueVisitors(visitors, name) >= 1
      ensures projects == old(projects)[name := old(projects[name]).(uniqueViews := uniqueViews)]
      ensures name in projects && projects[name].viewCount == old(projects[name].viewCount)
      ensures Total(projects, ViewCount) == old(Total(projects, ViewCount))
    {
      UpsertVisitor(name, visitorHash);
      ghost var v1 := visitors;
      uniqueViews := RecountUnique(name);
      assert visitors == v1;
      assert (name, visitorHash) in VisitorsOf(visitors, name);
    }

    /** The body of `POST /api/views/:projectName` once the name is valid:
        usage tracking, the view upsert and, with analytics on, the visitor
        upsert and the unique-count recompute and write-back. */
    method Increment(name: string, visitorHash: string, analytics: bool, date: string)
      returns (totalViews: nat, uniqueViews: nat)
      requires Valid()
      modifies this
      ensures Valid()
      ensures totalViews == Viewed(old(projects), name).viewCount
      ensures analytics ==>
                projects == old(projects)[name := Viewed(old(projects), name).(uniqueViews := uniqueViews)]
      ensures !analytics ==> projects == old(projects)[name := Viewed(old(projects), name)]
      ensures Total(projects, ViewCount) == old(Total(projects, ViewCount)) + 1
      ensures analytics ==>
                && visitors == Visited(old(visitors), (name, visitorHash))
                && uniqueViews == UniqueVisitors(visitors, name) >= 1
      ensures !analytics ==> visitors == old(visitors) && uniqueViews == 0
      ensures usage == Tracked(old(usage), date)
    {
      ghost var before := projects;
      TrackUsage(date);
      UpsertView(name);
      uniqueViews := 0;
      if analytics {
        uniqueViews := RecordVisitor(name, visitorHash);
        OverwriteTwice(before, name, Viewed(before, name), Viewed(before, name).(uniqueViews := uniqueViews));
      }
      totalViews := projects[name].viewCount;
    }

    /** `POST /api/views/:projectName`: the rate limiter keyed by
        CF-Connecting-IP (else "unknown") runs first, so an invalid name
        still uses up quota; a refused call changes no table. */
    method Post(limiter: RateLimit.RateLimiter, name: string,
                cfConnectingIp: Option<string>, xForwardedFor: Option<string>, userAgent: Option<string>,
                env: Env, now: int, date: string)
      returns (decision: RateLimit.Decision, r: Reply)
      requires Valid()
      modifies this, limiter
      ensures Valid()
      ensures (limiter.store, decision) ==
              RateLimit.Step(old(limiter.store), OrElse(cfConnectingIp, "unknown"), now,
                             env.rateLimitRequests, env.rateLimitWindow)
      ensures decision.Limited? ==>
                r == RateLimited(decision.retryAfter, decision.resetAt) && r.Status() == 429
                && projects == old(projects) && visitors == old(visitors) && usage == old(usage)
      ensures decision.Allowed? && !ValidName(name) ==>
                r == InvalidName && projects == old(projects) && visitors == old(visitors) && usage == old(usage)
      ensures decision.Allowed? && ValidName(name) ==>
                && r.Incremented? && r.projectName == name && name in projects
                && r.totalViews == projects[name].viewCount
                && r.totalViews == Viewed(old(projects), name).viewCount
                && usage == Tracked(old(usage), date)
                && (Enabled(env.enableAnalytics) ==>
                      && projects == old(projects)[name := Viewed(old(projects), name).(uniqueViews := r.uniqueViews)]
                      && visitors == Visited(old(visitors), (name, Fingerprint.VisitorToken(cfConnectingIp, xForwardedFor, userAgent)))
                      && r.uniqueViews == UniqueVisitors(visitors, name) >= 1)
                && (!Enabled(env.enableAnalytics) ==>
                      && projects == old(projects)[name := Viewed(old(projects), name)]
                      && r.uniqueViews == 0 && visitors == old(visitors))
    {
      decision := limiter.Check(OrElse(cfConnectingIp, "unknown"), now,
                                env.rateLimitRequests, env.rateLimitWindow);
      if decision.Limited? {
        return decision, RateLimited(decision.retryAfter, decision.resetAt);
      }
      if !ValidName(name) {
        return decision, InvalidName;
      }
      var visitorHash := Fingerprint.VisitorHash(cfConnectingIp, xForwardedFor, userAgent);
      var totalViews, uniqueViews := Increment(name, visitorHash, Enabled(env.enableAnalytics), date);
      r := Incremented(name, totalViews, uniqueViews);
    }

    /** `GET /api/views/:projectName/badge`: an absent project is drawn with 0. */
    method BadgeFor(name: string, style: Option<string>, color: Option<string>, caption: Option<string>)
      returns (r: Reply)
      ensures !ValidName(name) ==> r == InvalidName
      ensures ValidName(name) ==>
                r == BadgeSvg(Badge.Render(if name in projects then projects[name].viewCount else 0,
                                           style, color, caption))
    {
      if !ValidName(name) {
        return InvalidName;
      }
      var count := if name in projects then projects[name].viewCount else 0;
      r := BadgeSvg(Badge.Render(count, style, color, caption));
    }

    /** The two sums of `project_views`, one row at a time. */
    method Totals() returns (views: nat, uniques: nat)
      ensures views == Total(projects, ViewCount)
      ensures uniques == Total(projects, UniqueViews)
    {
      var rest := projects;
      views, uniques := 0, 0;
      while rest != map[]
        invariant views + Total(rest, ViewCount) == Total(projects, ViewCount)
        invariant uniques + Total(rest, UniqueViews) == Total(projects, UniqueViews)
        decreases |rest|
      {
        var k :| k in rest;
        TotalRemove(rest, k, ViewCount);
        TotalRemove(rest, k, UniqueViews);
        views, uniques := views + rest[k].viewCount, uniques + rest[k].uniqueViews;
        rest := rest - {k};
      }
    }

    /** `GET /api/stats`: the sums and the project count; the unique sum is
        null when analytics is off. */
    method Stats(env: Env) returns (r: Reply)
      ensures r == GlobalStats(Total(projects, ViewCount),
                               if Enabled(env.enableAnalytics) then Some(Total(projects, UniqueViews)) else None,
                               |projects|, Enabled(env.enableAnalytics))
    {
      var views, uniques := Totals();
      var analytics := Enabled(env.enableAnalytics);
      r := GlobalStats(views, if analytics then Some(uniques) else None, |projects|, analytics);
    }

    /** `POST /api/admin/stats`: 400 for an unreadable body, then the admin
        gate, then usage tracking and the sums. */
    method AdminStats(body: Body, env: Env, date: string) returns (r: Reply)
      modifies this
      ensures projects == old(projects) && visitors == old(visitors)
      ensures body.Unparseable? ==> r == BadRequest && usage == old(usage)
      ensures !body.Unparseable? ==>
                var g := AdminGate(env, if body.Password? then body.password else "");
                && (g == Disabled ==> r == Forbidden && usage == old(usage))
                && (g == Denied ==> r == Unauthorized && usage == old(usage))
                && (g == Open ==> r == AdminStatistics(Total(projects, ViewCount),
                                                       Total(projects, UniqueViews), |projects|)
                                  && usage == Tracked(old(usage), date))
    {
      if body.Unparseable? {
        return BadRequest;
      }
      var password := if body.Password? then body.password else "";
      var g := AdminGate(env, password);
      if g == Disabled {
        return Forbidden;
      }
      if g == Denied {
        return Unauthorized;
      }
      TrackUsage(date);
      var views, uniques := Totals();
      r := AdminStatistics(views, uniques, |projects|);
    }

    /** `DELETE /api/views/:projectName`: 400, then 403, then 401, then 404;
        on success the project row and all its visitor rows go. */
    method Delete(name: string, authorization: Option<string>, body: Body, env: Env, date: string)
      returns (r: Reply)
      requires Valid()
      modifies this
      ensures Valid()
      ensures !ValidName(name) ==> r == InvalidName && unchanged(this)
      ensures ValidName(name) ==>
                var g := AdminGate(env, DeletePassword(authorization, body));
                && (g == Disabled ==> r == Forbidden && unchanged(this))
                && (g == Denied ==> r == Unauthorized && unchanged(this))
                && (g == Open && name !in old(projects) ==> r == NotFound && unchanged(this))
                && (g == Open && name in old(projects) ==>
                      && r == Deleted(name)
                      && projects == old(projects) - {name}
                      && visitors == (map k | k in old(visitors) && k.0 != name :: old(visitors)[k])
                      && VisitorsOf(visitors, name) == {}
                      && Total(projects, ViewCount) + old(projects[name].viewCount) == old(Total(projects, ViewCount))
                      && usage == Tracked(old(usage), date))
    {
      if !ValidName(name) {
        return InvalidName;
      }
      var password := DeletePassword(authorization, body);
      var g := AdminGate(env, password);
      if g == Disabled {
        return Forbidden;
      }
      if g == Denied {
        return Unauthorized;
      }
      if name !in projects {
        return NotFound;
      }

      TotalRemove(projects, name, ViewCount);
      RemoveProjectKeepsValid(projects, visitors, name);
      // DELETE FROM project_views WHERE project_name = ?
      projects := projects - {name};
      // DELETE FROM visitor_tracking WHERE project_name = ?
      visitors := map k | k in visitors && k.0 != name :: visitors[k];

      TrackUsage(date);
      r := Deleted(name);
    }
  }

  /** The order of a DELETE's outcomes: an invalid name is 400 before anything
      else; admin switched off is 403 whatever the password; a bad or missing
      password is 401 before the project is looked up. */
  lemma DeleteOutcomeOrder(env: Env, authorization: Option<string>, body: Body)
    ensures !Enabled(env.enableAdmin) ==> AdminGate(env, DeletePassword(authorization, body)) == Disabled
    ensures env.adminPassword.None? ==> AdminGate(env, DeletePassword(authorization, body)) != Open
    ensures Enabled(env.enableAdmin) && env.adminPassword.Some? && env.adminPassword.value != "" &&
            authorization == Some("Bearer " + env.adminPassword.value) ==>
              AdminGate(env, DeletePassword(authorization, body)) == Open
  {
    if authorization.Some? && env.adminPassword.Some? && authorization == Some("Bearer " + env.adminPassword.value) {
      var a := authorization.value;
      assert a[..7] == "Bearer ";
      assert a[7..] == env.adminPassword.value;
    }
  }
}
